=== FILE: README.md ===
# CircleCI Terraform provider core, modelled in Dafny

This project models the core of the CircleCI Terraform provider (a Go
program). The core has two parts:

- the API client, in `circleci/client`:
  - the "/" element-id codec;
  - contexts;
  - context environment variables;
  - project checkout keys;
- four of the provider's resources:
  - `circleci_context`;
  - `circleci_context_environment_variable`;
  - `circleci_environment_variable`;
  - `circleci_checkout_key`, with its "." id codec.

Each resource maps Terraform's Create, Read, Delete and Import onto client calls.

The model is pure. A Terraform `ResourceData` is a value: an id plus a map of
attributes. Every lifecycle function returns the data it leaves behind
together with the error it returns. The remote side cannot be seen, so it is a
parameter:

- the REST transport is a function from the request built (verb, path, body)
  to what came back: the request could not be built, a decoded answer, or an
  error with its HTTP status;
- the upstream circleci-cli context client and the project environment-variable
  calls are records of functions.

Because the service is a parameter, contracts can say which request an
operation sends and what it does with each possible answer. Operations that
ask the service the same question before and after a write (the
environment-variable Creates) take two snapshots of the service: `now` and
`later`.

Go errors are a datatype with the following members:

- `HttpError(code)`: the REST client's error;
- `ContextNotFound`: the sentinel;
- `Message(text)`: a plain message;
- `Wrapped(prefix, cause)`: the `%w` verb;
- `Flattened(prefix, cause)`: the `%v` verb.

`Is`, `IsNotFound` and the unwrap `Chain` follow `errors.Is`, `errors.As` and
`errors.Unwrap`.

Files, one module each:

- `results.dfy`: Option and Result.
- `text.dfy`: Go's `strings.Split`, `strings.Join` and `strings.ToUpper`, with their round-trip lemmas.
- `errors.dfy`: error values and chains.
- `element_id.dfy`: `ComposeElementId` and `DecomposeElementId`.
- `checkout_key_id.dfy`: `parseCheckoutKeyId` and `generateCheckoutKeyId`.
- `client.dfy`: client configuration, requests and exchanges, project slugs.
- `contexts.dfy`: `circleci/client/context.go`.
- `context_environment.dfy`: `circleci/client/context_environment.go`.
- `project_checkout_keys.dfy`: `circleci/client/project_checkout_keys.go`.
- `schema.dfy`: the part of Terraform's `ResourceData` the resources use.
- `resource_context.dfy`, `resource_context_environment_variable.dfy`,
  `resource_environment_variable.dfy`, `resource_checkout_key.dfy`: the four
  resources.

## Model

| member | source | states |
|---|---|---|
| Text.ToUpper | circleci/client/client.go:88-90 | upper-casing the expected id shape keeps its length, turns each lower-case letter into its capital ('a' into 'A', and so on) and keeps every other character where it was |
| Text.JoinSplit | circleci/client/client.go:74-81 | joining the "/"-tokens of any string with "/" gives that string back, so splitting an id loses nothing |
| Text.SplitConcat | circleci/client/client.go:70 | splitting "x/y" yields the tokens of x followed by the tokens of y |
| Text.SplitJoin | circleci/client/client.go:106-108 | splitting a joined list of pieces yields each piece's own tokens, in order |
| Text.SplitUndelimited | circleci/client/client.go:74 | a string without the separator splits into itself alone |
| Text.SplitPiecesUndelimited | circleci/client/client.go:74 | no token produced by splitting contains the separator |
| Text.JoinAppend | circleci/client/client.go:81 | joining two non-empty lists of tokens is joining each and putting one separator between them |
| Errors.IsMeansOnChain | circleci/resource_circleci_context.go:54 | `errors.Is(err, target)` holds exactly when the target occurs on the unwrap chain of err |
| Errors.NotFoundMeansOnChain | circleci/client/client.go:110-117 | `isNotFound` holds exactly when an HTTP error with status 404 occurs on the unwrap chain |
| Errors.WrappingAndNotFound | circleci/client/context_environment.go:14 | wrapping with `%w` keeps a 404 or the context-not-found sentinel visible; formatting with `%v` hides both |
| ElementId.Assign | circleci/client/client.go:83-85 | the loop adds exactly the given names as keys, leaves other keys alone, and with distinct names stores the i-th value under the i-th name |
| ElementId.Assemble | circleci/client/client.go:79-86 | the map holds exactly the requested names; the parent gets the join of all tokens but the last k, trailing name i gets token cut+i-1 |
| ElementId.DecomposeParts | circleci/client/client.go:79-103 | fewer than two tokens fails; every failure is the malformed-id error; with distinct names success holds exactly when the parent and every trailing token are non-empty |
| ElementId.Decompose | circleci/client/client.go:73-104 | an id with fewer than two "/"-tokens fails; every failure names the upper-cased expected shape; with distinct names it succeeds exactly when the parent and every trailing token are non-empty, and then the parent is the join of the leading tokens and each trailing name gets its token in order |
| ElementId.SplitComposed | circleci/client/client.go:106-108 | the "/"-tokens of a composed id are the parent's tokens followed by the "/"-free values, one token each |
| ElementId.ComposeThenDecompose | circleci/client/client.go:73-108 | a non-empty parent, which may hold "/", followed by non-empty "/"-free values decomposes back into exactly those segments |
| ElementId.AssembledInOrder | circleci/client/client.go:80-85 | read back in name order, the assembled values are the parent followed by the trailing tokens |
| ElementId.JoinHeadThenTail | circleci/client/client.go:81 | joining the parent's join with the trailing tokens equals joining all tokens |
| ElementId.RecomposeParts | circleci/client/client.go:80-85 | when at least one token is left for the parent, the assembled values joined in name order rebuild the joined tokens |
| ElementId.DecomposeThenCompose | circleci/client/client.go:73-108 | composing what a successful decomposition returned, in name order, rebuilds the id |
| ElementId.UndelimitedIdRejected | circleci/client/client.go:74-95 | an id without "/" is always rejected with the malformed-id error |
| ElementId.PairRoundTrip | circleci/resource_circleci_environment_variable_test.go:83-122 | "<project>/<name>" with a "/"-free name decomposes into exactly {project, name}, even when the project holds "." |
| CheckoutKeyId.Parse | circleci/resource_circleci_checkout_key.go:160-171 | fewer than three "."-tokens gives four empty parts; otherwise organization, type and fingerprint hold no "."; exactly three tokens gives an empty project |
| CheckoutKeyId.ThreeTokens | circleci/resource_circleci_checkout_key.go:160-171 | an id of exactly three dot-free tokens parses into organization, type and fingerprint in that order, with an empty project |
| CheckoutKeyId.GenerateSpelled | circleci/resource_circleci_checkout_key.go:173-181 | the generated id is the four parts with one "." between consecutive ones |
| CheckoutKeyId.ParseGenerate | circleci/resource_circleci_checkout_key_test.go:177-199 | when organization, type and fingerprint hold no ".", the generated id parses back into the same four parts, whatever the project (dotted or empty) |
| CheckoutKeyId.GenerateParse | circleci/resource_circleci_checkout_key.go:160-181 | any id with at least four "."-separated tokens is rebuilt by generating from its parsed parts, even when the parsed project is empty |
| CheckoutKeyId.CompleteRegenerates | circleci/resource_circleci_checkout_key.go:146-181 | an id that passes the four-non-empty-parts validation is regenerated exactly by its parts |
| Client.ProjectSlug | circleci/client/client.go:68-71 | the slug never fails and its "/"-tokens are those of the VCS, then the organization, then the project; `Client.Slug(project)` is this slug for the configured VCS and organization |
| Contexts.GetContext | circleci/client/context.go:14-33 | succeeds exactly when the GET of "context/<id>" is answered; a 404 becomes the context-not-found sentinel; other failures come back unchanged; the sentinel appears exactly on a 404 |
| Contexts.GetContextByIDOrName | circleci/client/context.go:40-47 | a UUID is fetched by id, anything else is looked up by name in the configured VCS and organization |
| Contexts.CreateContextRequest | circleci/client/context.go:59-67 | POST to "context" with the name, owner type "organization", and an owner slug made of the VCS and organization |
| Contexts.CreateContext | circleci/client/context.go:59-79 | the created context is the answer to that request; failures come back unchanged |
| ContextEnvironment.Listed | circleci/client/context_environment.go:44-48 | the scan finds the variable exactly when some listed variable has that name |
| ContextEnvironment.CreateOrUpdate | circleci/client/context_environment.go:9-19 | a failed context lookup sends no write and returns an error with neither a 404 nor the context sentinel on its chain; otherwise exactly one upsert goes to the resolved context id and its answer is returned |
| ContextEnvironment.List | circleci/client/context_environment.go:21-30 | a failed lookup is reported with `%v`, so neither a 404 nor the context sentinel is on its chain; otherwise the listing of the resolved context id |
| ContextEnvironment.Has | circleci/client/context_environment.go:32-51 | a successful listing gives true exactly when it holds the name; a listing error with a 404 on its chain gives false; any other error is returned |
| ContextEnvironment.Delete | circleci/client/context_environment.go:53-62 | a failed lookup sends no write and returns an error with neither a 404 nor the context sentinel on its chain; otherwise exactly one removal goes to the resolved context id and its answer is returned |
| ContextEnvironment.UpsertThenHas | circleci/client/context_environment.go:9-51 | after a successful upsert, an upstream that lists what it stored makes `Has` find the variable under the same context name |
| ContextEnvironment.DeleteThenHas | circleci/client/context_environment.go:32-62 | after a successful removal, an upstream that lists what it stored makes `Has` report the variable absent |
| ContextEnvironment.UnresolvedContextIsAnError | circleci/client/context_environment.go:32-51 | when the context cannot be resolved, `Has` fails with the lookup error rather than answering false |
| ProjectCheckoutKeys.KeysPath | circleci/client/project_checkout_keys.go:67 | the path's "/"-tokens are "project", the slug's tokens, then "checkout-key" |
| ProjectCheckoutKeys.KeyPath | circleci/client/project_checkout_keys.go:23 | the path's "/"-tokens are "project", the slug's tokens, "checkout-key", then the fingerprint's tokens |
| ProjectCheckoutKeys.Has | circleci/client/project_checkout_keys.go:16-34 | a slug or request-building failure is an error; an answer is true; a rejection of any status is false |
| ProjectCheckoutKeys.Get | circleci/client/project_checkout_keys.go:36-54 | the key is the answer to the GET of the key's path; failures come back unchanged |
| ProjectCheckoutKeys.Create | circleci/client/project_checkout_keys.go:60-81 | the key is the answer to a POST of the key type to the project's key collection; failures come back unchanged |
| ProjectCheckoutKeys.Delete | circleci/client/project_checkout_keys.go:83-97 | no error exactly when the DELETE of the key's path is answered; otherwise its error |
| ProjectCheckoutKeys.HasAgreesWithGet | circleci/client/project_checkout_keys.go:16-54 | for a built request, `Has` is true exactly when `Get` returns a key |
| ContextResource.Read | circleci/resource_circleci_context.go:47-65 | an answer sets the name and keeps the id and every other attribute; a 404 clears the id without error; any other failure keeps the id and returns the error; the id changes only on a 404 |
| ContextResource.Create | circleci/resource_circleci_context.go:31-45 | a failed create is wrapped with "error creating context" and leaves the data alone; a created context's id becomes the id and Read follows |
| ContextResource.Delete | circleci/resource_circleci_context.go:67-75 | never changes the data; reports exactly a failed delete, wrapped |
| ContextResource.Import | circleci/resource_circleci_context.go:77-91 | the given id is a name; a failed lookup is "context does not exist" wrapping its cause; a found context supplies the id and the name, and every other attribute is kept |
| ContextResource.ImportThenRead | circleci/resource_circleci_context.go:47-91 | refreshing an imported context whose fetch returns the looked-up context changes nothing |
| ContextEnvironmentVariableResource.Read | circleci/resource_circleci_context_environment_variable.go:67-83 | an error keeps the id and wraps the cause; the id is cleared, without error, exactly when the variable is reported absent |
| ContextEnvironmentVariableResource.Create | circleci/resource_circleci_context_environment_variable.go:49-65 | a failed upsert is wrapped and leaves the data alone; after a successful one the id is "<context>/<name>" and Read follows |
| ContextEnvironmentVariableResource.Delete | circleci/resource_circleci_context_environment_variable.go:85-96 | never changes the data; reports exactly a failed delete, wrapped |
| ContextEnvironmentVariableResource.Import | circleci/resource_circleci_context_environment_variable.go:98-117 | a malformed id fails with the decomposition error; a decomposable id whose variable is confirmed present always imports; a missing or unverifiable variable fails with a `%v` message that hides its cause; on success the id is kept and context and name come from it |
| ContextEnvironmentVariableResource.ImportRecomposesId | circleci/resource_circleci_context_environment_variable.go:60-117 | a successful import leaves attributes from which Create composes exactly the imported id |
| ContextEnvironmentVariableResource.CreateThenImport | circleci/resource_circleci_context_environment_variable.go:49-117 | importing a freshly created variable reproduces the created state |
| EnvironmentVariableResource.Read | circleci/resource_circleci_environment_variable.go:93-110 | an error keeps the id and wraps the cause; the id is cleared, without error, exactly when the variable is confirmed absent |
| EnvironmentVariableResource.Create | circleci/resource_circleci_environment_variable.go:66-91 | the variable is written exactly once when it is confirmed absent and never otherwise; an existing variable is refused; a failed check comes back as is; a failed write is wrapped; only a successful write sets the id to "<project>/<name>", and Read follows |
| EnvironmentVariableResource.Delete | circleci/resource_circleci_environment_variable.go:112-125 | clears the id exactly when the remote delete succeeds; a failure keeps it and is wrapped |
| EnvironmentVariableResource.Import | circleci/resource_circleci_environment_variable.go:127-146 | a malformed id fails with the decomposition error; a decomposable id whose variable is confirmed present always imports; one not confirmed present fails with "environment variable does not exist" wrapping (`%w`) the failed check's error, or nothing when the variable is absent; on success the id is kept and project and name come from it |
| EnvironmentVariableResource.ImportRecomposesId | circleci/resource_circleci_environment_variable.go:86-146 | a successful import leaves attributes from which Create composes exactly the imported id |
| EnvironmentVariableResource.CreatedIdDecomposes | circleci/resource_circleci_environment_variable.go:86-88 | the id Create writes decomposes back into the project and name it was made from |
| EnvironmentVariableResource.CreateThenImport | circleci/resource_circleci_environment_variable.go:66-146 | importing a freshly created variable reproduces the created state |
| CheckoutKeyResource.SetFromId | circleci/resource_circleci_checkout_key.go:146-158 | succeeds exactly when all four parsed parts are non-empty, and then sets the four attributes to them, which regenerate the id; otherwise it fails with the expected-form message; three or fewer tokens always fail |
| CheckoutKeyResource.Record | circleci/resource_circleci_checkout_key.go:86-89 | copies the key's fingerprint, public key, preferred flag and creation time; adds no other attribute and keeps the id and every other attribute |
| CheckoutKeyResource.ReadStart | circleci/resource_circleci_checkout_key.go:97-102 | with a fingerprint the data is used as is; without one it succeeds exactly when all four parts of the id are non-empty, taking organization, project, type and fingerprint from them, and otherwise fails with the expected-shape message |
| CheckoutKeyResource.Read | circleci/resource_circleci_checkout_key.go:94-123 | never changes the id; without a fingerprint an incomplete id is refused and a complete one supplies organization, project and type; a failed organization lookup comes back as is; a failed fetch is wrapped; a fetched key is recorded |
| CheckoutKeyResource.Create | circleci/resource_circleci_checkout_key.go:68-92 | an organization or create failure comes back as is and leaves the data alone; otherwise the id is generated from the resolved organization, project, type and assigned fingerprint, and Read follows |
| CheckoutKeyResource.Delete | circleci/resource_circleci_checkout_key.go:125-144 | clears the id exactly when the organization resolved and the remote delete succeeded; a failed delete is wrapped |
| CheckoutKeyResource.CreatedIdParses | circleci/resource_circleci_checkout_key.go:84 | the id Create writes parses back into the resolved organization, project, type and fingerprint |
| CheckoutKeyResource.ImportReadsIdParts | circleci/resource_circleci_checkout_key.go:18-20 | importing by an id of four non-empty parts sets organization, project and type from the id, whatever the service then answers |

## Left out

- The HTTP transport (`rest.NewRequest`, `rest.DoRequest`, JSON coding) is a
  parameter. Only the request sent and the outcome received are modelled.
- The upstream circleci-cli context client (`ContextByName`,
  `EnvironmentVariables`, `CreateEnvironmentVariable`,
  `DeleteEnvironmentVariable`, `DeleteContext`) is a parameter. Its code is
  not part of this model.
- The project environment-variable client functions
  (`HasProjectEnvironmentVariable`, `CreateProjectEnvironmentVariable`,
  `DeleteProjectEnvironmentVariable`) are not part of this model. They are
  parameters.
- The checkout-key code calls `Organization(given)` and `Slug(org, project)`.
  That variant of the client is not part of this model: the client shown has
  `Organization()` and `Slug(project)`. Organization resolution is therefore a
  parameter, and the slug is `ProjectSlug(vcs, organization, project)`.
- `client.New` and URL parsing are left out: this is configuration, with no
  logic beyond the stored VCS and organization.
- `uuid.Parse` is a predicate parameter of `GetContextByIDOrName`.
- `hashString` is left out. It is SHA-256 and Base64, and only shapes the
  stored value in state.
- `validateEnvironmentVariableNameFunc` is left out. It is not part of this
  model.
- Schema declarations, timeouts, `ForceNew` and the Terraform SDK's planning
  are left out: the model covers what the lifecycle functions do, not how
  Terraform schedules them.
- The checkout-key Import is `ImportStatePassthrough`. It is modelled by Read
  on data holding only the id (`CheckoutKeyResource.ImportReadsIdParts`).
- The context environment variable's Update is the same function as its
  Create, so it is modelled by `ContextEnvironmentVariableResource.Create`.
- Data sources, `GetProject` and the provider wiring are outside the core.
- Text.ToUpper: upper-cases ASCII letters only, while Go's `strings.ToUpper`
  also maps other Unicode letters.
- ElementId.Decompose: the Go code panics when it is called with no names,
  or with more trailing names than tokens once there are at least two
  tokens. These cases are preconditions here, and every caller passes two
  names.
- A checkout-key Read whose key has disappeared remotely returns the wrapped
  error and keeps the id. It does not clear the id as the other resources
  do. This follows the code.
- The context and context-environment-variable Deletes leave the id in
  place even on success, following the code. The project
  environment-variable and checkout-key Deletes clear it.
- The comment on `HasContextEnvironmentVariable` says a missing context
  reads as "false". The lookup error is formatted with `%v`, so no 404
  survives in it and an unresolved context is an error. The model follows
  the code (`ContextEnvironment.UnresolvedContextIsAnError`).

=== FILE: checkout_key_id.dfy ===
/**
 * The "."-separated checkout-key ids of `circleci/resource_circleci_checkout_key.go`:
 * ORGANIZATION.PROJECT.TYPE.FINGERPRINT, where the organization is the first
 * token, the type and fingerprint are the last two, and the project takes
 * every token in between, so it may contain "." or be empty.
 */
module CheckoutKeyId {
  import opened Text

  const Dot: char := '.'

  datatype KeyId = KeyId(organization: string, project: string, keyType: string, fingerprint: string)

  /** What `parseCheckoutKeyId` returns for an id with fewer than three tokens. */
  const Blank := KeyId("", "", "", "")

  /** All four parts are non-empty: the validation `setOrgProjectNameFromCheckoutKeyId` applies. */
  predicate Complete(k: KeyId)
  {
    k.organization != "" && k.project != "" && k.keyType != "" && k.fingerprint != ""
  }

  /** `parseCheckoutKeyId`. */
  function Parse(id: string): (k: KeyId)
    ensures |Split(id, Dot)| < 3 ==> k == Blank
    ensures |Split(id, Dot)| >= 3 ==> Dot !in k.organization && Dot !in k.keyType && Dot !in k.fingerprint
    ensures |Split(id, Dot)| == 3 ==> k.project == ""
  {
    var parts := Split(id, Dot);
    SplitPiecesUndelimited(id, Dot);
    if |parts| >= 3
    then KeyId(parts[0], Join(parts[1..|parts| - 2], Dot), parts[|parts| - 2], parts[|parts| - 1])
    else Blank
  }

  /** `generateCheckoutKeyId`: the four parts joined with ".". */
  function Generate(organization: string, project: string, keyType: string, fingerprint: string): string
  {
    Join([organization, project, keyType, fingerprint], Dot)
  }

  /** The generated id spelled out: three dots separate the four parts. */
  lemma GenerateSpelled(organization: string, project: string, keyType: string, fingerprint: string)
    ensures Generate(organization, project, keyType, fingerprint)
         == organization + [Dot] + (project + [Dot] + (keyType + [Dot] + fingerprint))
  {
    var parts := [organization, project, keyType, fingerprint];
    assert parts[1..] == [project, keyType, fingerprint];
    assert parts[1..][1..] == [keyType, fingerprint];
    assert parts[1..][1..][1..] == [fingerprint];
    assert Join([keyType, fingerprint], Dot) == keyType + [Dot] + fingerprint;
    assert Join([project, keyType, fingerprint], Dot) == project + [Dot] + (keyType + [Dot] + fingerprint);
  }

  /**
   * Round trip from parts: when the organization, type and fingerprint hold
   * no "." the generated id parses back into the same four parts, whatever
   * the project is, dotted or empty.
   */
  lemma ParseGenerate(organization: string, project: string, keyType: string, fingerprint: string)
    requires Dot !in organization && Dot !in keyType && Dot !in fingerprint
    ensures Parse(Generate(organization, project, keyType, fingerprint)) == KeyId(organization, project, keyType, fingerprint)
  {
    var id := Generate(organization, project, keyType, fingerprint);
    GenerateSpelled(organization, project, keyType, fingerprint);
    SplitConcat(keyType, fingerprint, Dot);
    SplitConcat(project, keyType + [Dot] + fingerprint, Dot);
    SplitConcat(organization, project + [Dot] + (keyType + [Dot] + fingerprint), Dot);
    SplitUndelimited(organization, Dot);
    SplitUndelimited(keyType, Dot);
    SplitUndelimited(fingerprint, Dot);
    var middle := Split(project, Dot);
    var parts := Split(id, Dot);
    assert parts == [organization] + middle + [keyType, fingerprint];
    assert parts[1..|parts| - 2] == middle;
    JoinSplit(project, Dot);
  }

  /**
   * An id of exactly three tokens parses into organization, type and
   * fingerprint, in that order, with an empty project.
   */
  lemma ThreeTokens(a: string, b: string, c: string)
    requires Dot !in a && Dot !in b && Dot !in c
    ensures Parse(a + [Dot] + b + [Dot] + c) == KeyId(a, "", b, c)
  {
    assert a + [Dot] + b + [Dot] + c == a + [Dot] + (b + [Dot] + c);
    SplitConcat(b, c, Dot);
    SplitConcat(a, b + [Dot] + c, Dot);
    SplitUndelimited(a, Dot);
    SplitUndelimited(b, Dot);
    SplitUndelimited(c, Dot);
  }

  /**
   * Round trip from an id: whenever the id has at least four tokens,
   * generating from the parsed parts rebuilds it, even when the parsed
   * project is empty (as for "a..b.c").
   */
  lemma GenerateParse(id: string)
    requires |Split(id, Dot)| >= 4
    ensures Generate(Parse(id).organization, Parse(id).project, Parse(id).keyType, Parse(id).fingerprint) == id
  {
    var parts := Split(id, Dot);
    var n := |parts|;
    var middle := parts[1..n - 2];
    assert |middle| >= 1;
    var k := Parse(id);
    GenerateSpelled(k.organization, k.project, k.keyType, k.fingerprint);
    assert parts == [parts[0]] + middle + [parts[n - 2], parts[n - 1]];
    JoinAppend([parts[0]], middle + [parts[n - 2], parts[n - 1]], Dot);
    JoinAppend(middle, [parts[n - 2], parts[n - 1]], Dot);
    assert [parts[0]] + (middle + [parts[n - 2], parts[n - 1]]) == parts;
    assert Join([parts[n - 2], parts[n - 1]], Dot) == parts[n - 2] + [Dot] + parts[n - 1];
    JoinSplit(id, Dot);
  }

  /** The validated case: a parse with four non-empty parts regenerates its id. */
  lemma CompleteRegenerates(id: string)
    requires Complete(Parse(id))
    ensures Generate(Parse(id).organization, Parse(id).project, Parse(id).keyType, Parse(id).fingerprint) == id
  {
    assert |Split(id, Dot)| >= 4;
    GenerateParse(id);
  }
}

=== FILE: client.dfy ===
/**
 * The parts of `circleci/client/client.go` every client operation shares:
 * the configured VCS and organization, project slugs, and the shape of a
 * REST exchange. The transport itself is not modelled: a REST endpoint is a
 * function from the request built to what came back.
 */
module Client {
  import opened Results
  import opened Errors
  import opened Text

  /** The `vcs` and `organization` fields of `Client`. */
  datatype Config = Config(vcs: string, organization: string)

  /** The request bodies the provider sends. */
  datatype Body =
    | NoBody
    /** `createContextRequest` with its `contextOwner`. */
    | NewContext(name: string, ownerSlug: string, ownerType: string)
    /** `createCheckoutKey`. */
    | NewCheckoutKey(keyType: string)

  /** What `rest.NewRequest` is asked to build: HTTP method, URL path and body. */
  datatype Request = Request(verb: string, path: string, body: Body)

  /** How one request went. */
  datatype Exchange<T> =
    /** `NewRequest` failed: nothing was sent. */
    | Unbuilt(err: Error)
    /** `DoRequest` returned a nil error and decoded the response. */
    | Answered(value: T)
    /** `DoRequest` returned an error, together with the response status. */
    | Rejected(status: int, err: Error)

  /** A REST endpoint: the exchange the remote service and transport produce for each request. */
  type Rest<T> = Request -> Exchange<T>

  /** The operations that do not inspect the status: every error comes back unchanged. */
  function Settle<T>(x: Exchange<T>): (r: Result<T, Error>)
    ensures r.Success? <==> x.Answered?
    ensures r.Success? ==> r.value == x.value
    ensures r.Failure? ==> r.error == x.err
  {
    match x
    case Unbuilt(e) => Failure(e)
    case Answered(v) => Success(v)
    case Rejected(_, e) => Failure(e)
  }

  /**
   * The project slug "<vcs>/<organization>/<project>". The format has no
   * failure case, so the error result is always nil.
   */
  function ProjectSlug(vcs: string, organization: string, project: string): (r: Result<string, Error>)
    ensures r.Success?
    ensures Split(r.value, '/') == Split(vcs, '/') + Split(organization, '/') + Split(project, '/')
  {
    var slug := vcs + "/" + organization + "/" + project;
    assert slug == vcs + ['/'] + (organization + ['/'] + project);
    SplitConcat(organization, project, '/');
    SplitConcat(vcs, organization + ['/'] + project, '/');
    Success(slug)
  }
}

=== FILE: context_environment.dfy ===
/**
 * Context environment variables, `circleci/client/context_environment.go`.
 * Every operation first resolves the context name to its id; a failed
 * lookup is reported with `%v`, which drops the cause from the error chain.
 */
module ContextEnvironment {
  import opened Results
  import opened Errors
  import opened Client
  import opened Contexts

  const LookupFailed := "could not find context by name"

  /** The error every operation returns when the context name does not resolve. */
  function LookupError(e: Error): Error
  {
    Flattened(LookupFailed, Some(e))
  }

  /** A write the provider sends upstream, addressed by context id. */
  datatype Write =
    /** `CreateEnvironmentVariable(contextID, variable, value)`, a PUT. */
    | Upsert(contextId: string, variable: string, value: string)
    /** `DeleteEnvironmentVariable(contextID, variable)`. */
    | Remove(contextId: string, variable: string)

  /** What a writing operation did: the writes it sent, in order, and the error it returned. */
  datatype Outcome = Outcome(writes: seq<Write>, err: Option<Error>)

  /** The loop of `HasContextEnvironmentVariable`: scan the listing for an exact name match. */
  function Listed(envs: seq<EnvironmentVariable>, variable: string): (found: bool)
    ensures found <==> exists i :: 0 <= i < |envs| && envs[i].variable == variable
  {
    if |envs| == 0 then false
    else if envs[0].variable == variable then true
    else
      assert forall i :: 1 <= i < |envs| ==> envs[i] == envs[1..][i - 1];
      Listed(envs[1..], variable)
  }

  /**
   * `CreateOrUpdateContextEnvironmentVariable`: one upsert keyed by the id
   * the name resolved to, returning what the upstream call returns; when the
   * lookup fails nothing is written and the error hides its cause.
   */
  function CreateOrUpdate(c: Config, up: Upstream, contextName: string, variable: string, value: string): (r: Outcome)
    ensures var lookup := up.contextByName(c.vcs, c.organization, contextName);
            && (lookup.Failure? ==> r == Outcome([], Some(LookupError(lookup.error))))
            && (lookup.Failure? ==> !IsNotFound(r.err.value) && !Is(r.err.value, ContextNotFound))
            && (lookup.Success? ==> r.writes == [Upsert(lookup.value.id, variable, value)])
            && (lookup.Success? ==> r.err == up.createEnvironmentVariable(lookup.value.id, variable, value))
  {
    match GetContextByName(c, up, contextName)
    case Failure(e) => Outcome([], Some(LookupError(e)))
    case Success(ctx) => Outcome([Upsert(ctx.id, variable, value)], up.createEnvironmentVariable(ctx.id, variable, value))
  }

  /**
   * `ListContextEnvironmentVariables`: the listing of the id the name
   * resolved to; a failed lookup is neither a 404 nor the context sentinel.
   */
  function List(c: Config, up: Upstream, contextName: string): (r: Result<seq<EnvironmentVariable>, Error>)
    ensures var lookup := up.contextByName(c.vcs, c.organization, contextName);
            && (lookup.Failure? ==> r == Failure(LookupError(lookup.error)))
            && (lookup.Failure? ==> !IsNotFound(r.error) && !Is(r.error, ContextNotFound))
            && (lookup.Success? ==> r == up.environmentVariables(lookup.value.id))
  {
    match GetContextByName(c, up, contextName)
    case Failure(e) => Failure(LookupError(e))
    case Success(ctx) => up.environmentVariables(ctx.id)
  }

  /**
   * `HasContextEnvironmentVariable`: true exactly when the listing holds a
   * variable of that name; a listing failure whose chain holds an HTTP 404
   * reads as absent, any other failure is returned.
   */
  function Has(c: Config, up: Upstream, contextName: string, variable: string): (r: Result<bool, Error>)
    ensures var listing := List(c, up, contextName);
            && (listing.Success? ==> r == Success(exists i :: 0 <= i < |listing.value| && listing.value[i].variable == variable))
            && (listing.Failure? && IsNotFound(listing.error) ==> r == Success(false))
            && (listing.Failure? && !IsNotFound(listing.error) ==> r == Failure(listing.error))
  {
    match List(c, up, contextName)
    case Failure(e) => if IsNotFound(e) then Success(false) else Failure(e)
    case Success(envs) => Success(Listed(envs, variable))
  }

  /**
   * `DeleteContextEnvironmentVariable`: one removal by the resolved id,
   * returning what the upstream call returns; when the lookup fails nothing
   * is deleted and the error hides its cause.
   */
  function Delete(c: Config, up: Upstream, contextName: string, variable: string): (r: Outcome)
    ensures var lookup := up.contextByName(c.vcs, c.organization, contextName);
            && (lookup.Failure? ==> r == Outcome([], Some(LookupError(lookup.error))))
            && (lookup.Failure? ==> !IsNotFound(r.err.value) && !Is(r.err.value, ContextNotFound))
            && (lookup.Success? ==> r.writes == [Remove(lookup.value.id, variable)])
            && (lookup.Success? ==> r.err == up.deleteEnvironmentVariable(lookup.value.id, variable))
  {
    match GetContextByName(c, up, contextName)
    case Failure(e) => Outcome([], Some(LookupError(e)))
    case Success(ctx) => Outcome([Remove(ctx.id, variable)], up.deleteEnvironmentVariable(ctx.id, variable))
  }

  /**
   * A context that cannot be resolved is an error for `Has`, not "absent":
   * the lookup error is formatted with `%v`, so no 404 in it is visible.
   */
  lemma UnresolvedContextIsAnError(c: Config, up: Upstream, contextName: string, variable: string)
    requires up.contextByName(c.vcs, c.organization, contextName).Failure?
    ensures Has(c, up, contextName, variable).Failure?
    ensures Has(c, up, contextName, variable).error == LookupError(up.contextByName(c.vcs, c.organization, contextName).error)
  {
  }

  /** The variable names each context id holds upstream: a reference model of the upstream store. */
  type Store = map<string, set<string>>

  /** The names the store holds for a context id; an unknown id holds none. */
  function Held(store: Store, id: string): set<string>
  {
    if id in store then store[id] else {}
  }

  /** A write's effect on the store: an upsert adds the name (a PUT on an existing one only replaces its value), a removal drops it. */
  function Perform(store: Store, w: Write): Store
  {
    match w
    case Upsert(id, variable, _) => store[id := Held(store, id) + {variable}]
    case Remove(id, variable) => store[id := Held(store, id) - {variable}]
  }

  /** The store after a sequence of writes, applied in order. */
  function PerformAll(store: Store, ws: seq<Write>): Store
    decreases |ws|
  {
    if |ws| == 0 then store else PerformAll(Perform(store, ws[0]), ws[1..])
  }

  /** The names a listing holds. */
  function Names(envs: seq<EnvironmentVariable>): set<string>
  {
    set i | 0 <= i < |envs| :: envs[i].variable
  }

  /** The upstream lists, for every context id in the store, exactly the names the store holds there. */
  predicate Lists(up: Upstream, store: Store)
  {
    forall id | id in store :: up.environmentVariables(id).Success? && Names(up.environmentVariables(id).value) == store[id]
  }

  /** A name is in a listing's names exactly when `Listed` finds it. */
  lemma NamesListed(envs: seq<EnvironmentVariable>, variable: string)
    ensures variable in Names(envs) <==> Listed(envs, variable)
  {
  }

  /**
   * Reading back an upsert: once it succeeded, if the name still resolves
   * to the same context and the upstream lists what the store holds after
   * the writes, `Has` finds the variable.
   */
  lemma UpsertThenHas(c: Config, now: Upstream, later: Upstream, store: Store, contextName: string, variable: string, value: string)
    requires CreateOrUpdate(c, now, contextName, variable, value).err.None?
    requires later.contextByName(c.vcs, c.organization, contextName) == now.contextByName(c.vcs, c.organization, contextName)
    requires Lists(later, PerformAll(store, CreateOrUpdate(c, now, contextName, variable, value).writes))
    ensures Has(c, later, contextName, variable) == Success(true)
  {
    var id := now.contextByName(c.vcs, c.organization, contextName).value.id;
    var ws := CreateOrUpdate(c, now, contextName, variable, value).writes;
    assert ws == [Upsert(id, variable, value)] && ws[1..] == [];
    var after := PerformAll(store, ws);
    assert after == PerformAll(Perform(store, Upsert(id, variable, value)), []);
    assert id in after && variable in after[id];
    NamesListed(later.environmentVariables(id).value, variable);
  }

  /**
   * Reading back a removal: once it succeeded, if the name still resolves
   * to the same context and the upstream lists what the store holds after
   * the writes, `Has` reports the variable absent.
   */
  lemma DeleteThenHas(c: Config, now: Upstream, later: Upstream, store: Store, contextName: string, variable: string)
    requires Delete(c, now, contextName, variable).err.None?
    requires later.contextByName(c.vcs, c.organization, contextName) == now.contextByName(c.vcs, c.organization, contextName)
    requires Lists(later, PerformAll(store, Delete(c, now, contextName, variable).writes))
    ensures Has(c, later, contextName, variable) == Success(false)
  {
    var id := now.contextByName(c.vcs, c.organization, contextName).value.id;
    var ws := Delete(c, now, contextName, variable).writes;
    assert ws == [Remove(id, variable)] && ws[1..] == [];
    var after := PerformAll(store, ws);
    assert after == PerformAll(Perform(store, Remove(id, variable)), []);
    assert id in after && variable !in after[id];
    NamesListed(later.environmentVariables(id).value, variable);
  }
}

=== FILE: contexts.dfy ===
/**
 * Contexts, as `circleci/client/context.go` reaches them: by id through the
 * provider's own REST client, by name and for deletion through the upstream
 * circleci-cli context client, which appears here only as a set of oracles.
 */
module Contexts {
  import opened Results
  import opened Errors
  import opened Text
  import opened Client

  /** `api.Context`, reduced to the fields the provider reads. */
  datatype Context = Context(id: string, name: string)

  /** `api.EnvironmentVariable`, reduced to its name. */
  datatype EnvironmentVariable = EnvironmentVariable(variable: string)

  /** The calls the provider makes on the upstream `api.ContextRestClient`, each answered by an oracle. */
  datatype Upstream = Upstream(
    /** `ContextByName(vcs, organization, name)`. */
    contextByName: (string, string, string) -> Result<Context, Error>,
    /** `EnvironmentVariables(contextID)`. */
    environmentVariables: string -> Result<seq<EnvironmentVariable>, Error>,
    /** `CreateEnvironmentVariable(contextID, variable, value)`, a PUT. */
    createEnvironmentVariable: (string, string, string) -> Option<Error>,
    /** `DeleteEnvironmentVariable(contextID, variable)`. */
    deleteEnvironmentVariable: (string, string) -> Option<Error>,
    /** `DeleteContext(contextID)`. */
    deleteContext: string -> Option<Error>)

  /** The request `GetContext` sends. */
  function ContextRequest(id: string): Request
  {
    Request("GET", "context/" + id, NoBody)
  }

  /** A failed exchange whose error is not the sentinel: the transport never produces the provider's own sentinel. */
  predicate Foreign<T>(x: Exchange<T>)
  {
    !x.Answered? ==> !Is(x.err, ContextNotFound)
  }

  /**
   * `GetContext`: a rejection with status 404 becomes `ErrContextNotFound`;
   * every other failure is returned as it came.
   */
  function GetContext(rest: Rest<Context>, id: string): (r: Result<Context, Error>)
    ensures var x := rest(ContextRequest(id));
            && (r.Success? <==> x.Answered?)
            && (r.Success? ==> r.value == x.value)
            && (x.Rejected? && x.status == 404 ==> r == Failure(ContextNotFound))
            && ((x.Rejected? && x.status != 404) || x.Unbuilt? ==> r == Failure(x.err))
            && (Foreign(x) ==> (r.Failure? && Is(r.error, ContextNotFound) <==> x.Rejected? && x.status == 404))
  {
    match rest(ContextRequest(id))
    case Unbuilt(e) => Failure(e)
    case Answered(ctx) => Success(ctx)
    case Rejected(status, e) => if status == 404 then Failure(ContextNotFound) else Failure(e)
  }

  /** `GetContextByName`: the upstream lookup in the configured VCS and organization. */
  function GetContextByName(c: Config, up: Upstream, name: string): Result<Context, Error>
  {
    up.contextByName(c.vcs, c.organization, name)
  }

  /**
   * `GetContextByIDOrName`: a string that parses as a UUID is fetched by id,
   * anything else is looked up by name. `isUuid` stands for `uuid.Parse` succeeding.
   */
  function GetContextByIDOrName(c: Config, rest: Rest<Context>, up: Upstream, isUuid: string -> bool, key: string): (r: Result<Context, Error>)
    ensures isUuid(key) ==> r == GetContext(rest, key)
    ensures !isUuid(key) ==> r == up.contextByName(c.vcs, c.organization, key)
  {
    if isUuid(key) then GetContext(rest, key) else GetContextByName(c, up, key)
  }

  /** The request `CreateContext` sends: the name, owned by the configured organization. */
  function CreateContextRequest(c: Config, name: string): (q: Request)
    ensures q.verb == "POST" && q.path == "context"
    ensures q.body.NewContext? && q.body.name == name && q.body.ownerType == "organization"
    ensures Split(q.body.ownerSlug, '/') == Split(c.vcs, '/') + Split(c.organization, '/')
  {
    SplitConcat(c.vcs, c.organization, '/');
    Request("POST", "context", NewContext(name, c.vcs + "/" + c.organization, "organization"))
  }

  /** `CreateContext`: the created context as the service returned it, or the request's error unchanged. */
  function CreateContext(c: Config, rest: Rest<Context>, name: string): (r: Result<Context, Error>)
    ensures var x := rest(CreateContextRequest(c, name));
            && (r.Success? <==> x.Answered?)
            && (r.Success? ==> r.value == x.value)
            && (r.Failure? ==> r.error == x.err)
  {
    Settle(rest(CreateContextRequest(c, name)))
  }
}

=== FILE: element_id.dfy ===
/**
 * The "/"-separated resource identifiers of `circleci/client/client.go`:
 * `ComposeElementId` joins segments, `DecomposeElementId` splits an id back
 * into named parts, giving the last tokens to the trailing names and
 * everything before them to the parent, which may itself contain "/".
 */
module ElementId {
  import opened Results
  import opened Errors
  import opened Text

  const Delimiter: char := '/'

  predicate Distinct(names: seq<string>)
  {
    forall i, j :: 0 <= i < j < |names| ==> names[i] != names[j]
  }

  /** `ComposeElementId`: the segments joined with "/", without escaping; it never fails. */
  function Compose(segments: seq<string>): string
  {
    Join(segments, Delimiter)
  }

  /** Reading a Go map: a missing key reads as the empty string. */
  function Lookup(m: map<string, string>, key: string): string
  {
    if key in m then m[key] else ""
  }

  /** The loop that stores `values[i]` under `names[i]`, in order, later writes winning. */
  function Assign(m: map<string, string>, names: seq<string>, values: seq<string>): (r: map<string, string>)
    requires |names| == |values|
    ensures r.Keys == m.Keys + (set n | n in names)
    ensures forall key :: key in m && key !in names ==> r[key] == m[key]
    ensures Distinct(names) ==> forall i :: 0 <= i < |names| ==> r[names[i]] == values[i]
    decreases |names|
  {
    if |names| == 0 then m
    else Assign(m[names[0] := values[0]], names[1..], values[1..])
  }

  /** The expected shape named in the error: the names upper-cased and joined by "/". */
  function ShapeHint(names: seq<string>): string
    requires |names| >= 1
  {
    ToUpper(names[0] + [Delimiter] + Join(names[1..], Delimiter))
  }

  function MalformedId(names: seq<string>): Error
    requires |names| >= 1
  {
    Message("error computing the id. Please make sure the ID is in the form " + ShapeHint(names))
  }

  /**
   * Whether the tokens of an id can fill `count` names: at least two tokens,
   * a non-empty parent made of all but the last `count - 1` tokens, and no
   * empty trailing token.
   */
  predicate Fills(parts: seq<string>, count: nat)
  {
    && |parts| >= 2
    && 1 <= count <= |parts| + 1
    && var cut := |parts| - (count - 1);
       && Join(parts[..cut], Delimiter) != ""
       && forall i :: cut <= i < |parts| ==> parts[i] != ""
  }

  /**
   * Where each name's value comes from: the parent gets the join of all
   * tokens but the last `|names| - 1`, and trailing name i gets token
   * `cut + i - 1`, counted from that cut.
   */
  predicate Entries(m: map<string, string>, parts: seq<string>, names: seq<string>)
    requires 1 <= |names| <= |parts| + 1
  {
    var cut := |parts| - (|names| - 1);
    && names[0] in m && m[names[0]] == Join(parts[..cut], Delimiter)
    && forall i :: 1 <= i < |names| ==> names[i] in m && m[names[i]] == parts[cut + i - 1]
  }

  /** The map `DecomposeElementId` fills before checking it: the parent under `names[0]`, trailing token i under `names[i]`. */
  function Assemble(parts: seq<string>, names: seq<string>): (out: map<string, string>)
    requires 1 <= |names| <= |parts| + 1
    ensures out.Keys == set n | n in names
    ensures Distinct(names) ==> Entries(out, parts, names)
  {
    var cut := |parts| - (|names| - 1);
    assert names == [names[0]] + names[1..];
    assert Distinct(names) ==> names[0] !in names[1..];
    Assign(map[names[0] := Join(parts[..cut], Delimiter)], names[1..], parts[cut..])
  }

  /** Every requested name maps to a non-empty value. */
  predicate AllFilled(out: map<string, string>, names: seq<string>)
  {
    forall i :: 0 <= i < |names| ==> Lookup(out, names[i]) != ""
  }

  /** The decomposition on the tokens of the id. */
  function DecomposeParts(parts: seq<string>, names: seq<string>): (r: Result<map<string, string>, Error>)
    requires |names| >= 1
    requires |parts| >= 2 ==> |names| - 1 <= |parts|
    ensures |parts| < 2 ==> r.Failure?
    ensures r.Failure? ==> r.error == MalformedId(names)
    ensures r.Success? ==> r.value.Keys == set n | n in names
    ensures r.Success? ==> r.value == Assemble(parts, names)
    ensures Distinct(names) ==> (r.Success? <==> Fills(parts, |names|))
    ensures Distinct(names) && r.Success? ==> Entries(r.value, parts, names)
  {
    var out := if |parts| >= 2 then Assemble(parts, names) else map[];
    assert |parts| < 2 ==> Lookup(out, names[0]) == "";
    if AllFilled(out, names) then Success(out) else Failure(MalformedId(names))
  }

  /**
   * `DecomposeElementId(id, names)`. The Go code indexes `names[0]` and slices
   * the tokens by the number of trailing names, so it demands a non-empty name
   * list and, once there are two tokens, no more trailing names than tokens.
   */
  function Decompose(id: string, names: seq<string>): (r: Result<map<string, string>, Error>)
    requires |names| >= 1
    requires |Split(id, Delimiter)| >= 2 ==> |names| - 1 <= |Split(id, Delimiter)|
    ensures |Split(id, Delimiter)| < 2 ==> r.Failure?
    ensures r.Failure? ==> r.error == MalformedId(names)
    ensures r.Success? ==> r.value.Keys == set n | n in names
    ensures Distinct(names) ==> (r.Success? <==> Fills(Split(id, Delimiter), |names|))
    ensures Distinct(names) && r.Success? ==> Entries(r.value, Split(id, Delimiter), names)
  {
    var parts := Split(id, Delimiter);
    DecomposeParts(parts, names)
  }

  /** Composing a parent with "/"-free values splits into the parent's tokens followed by the values. */
  lemma SplitComposed(parent: string, values: seq<string>)
    requires |values| >= 1
    requires forall i :: 0 <= i < |values| ==> Delimiter !in values[i]
    ensures Split(Compose([parent] + values), Delimiter) == Split(parent, Delimiter) + values
  {
    var segments := [parent] + values;
    assert segments[1..] == values;
    assert Compose(segments) == parent + [Delimiter] + Join(values, Delimiter);
    SplitConcat(parent, Join(values, Delimiter), Delimiter);
    SplitJoinUndelimited(values, Delimiter);
  }

  /** A parent's tokens followed by non-empty trailing tokens fill one more name than there are trailing tokens. */
  lemma FillsAfterParent(head: seq<string>, values: seq<string>)
    requires |head| >= 1 && Join(head, Delimiter) != ""
    requires |values| >= 1
    requires forall i :: 0 <= i < |values| ==> values[i] != ""
    ensures Fills(head + values, |values| + 1)
  {
  }

  /**
   * Round trip from segments: a non-empty parent, possibly containing "/",
   * followed by non-empty "/"-free values decomposes back into those segments.
   */
  lemma ComposeThenDecompose(parent: string, values: seq<string>, names: seq<string>)
    requires parent != ""
    requires |values| >= 1 && |names| == |values| + 1 && Distinct(names)
    requires forall i :: 0 <= i < |values| ==> values[i] != "" && Delimiter !in values[i]
    ensures |Split(Compose([parent] + values), Delimiter)| >= |names|
    ensures var r := Decompose(Compose([parent] + values), names);
            && r.Success?
            && r.value.Keys == set n | n in names
            && r.value[names[0]] == parent
            && forall i :: 1 <= i < |names| ==> r.value[names[i]] == values[i - 1]
  {
    SplitComposed(parent, values);
    var head := Split(parent, Delimiter);
    JoinSplit(parent, Delimiter);
    FillsAfterParent(head, values);
    var parts := head + values;
    assert parts[..|head|] == head;
    var r := Decompose(Compose([parent] + values), names);
    forall i | 1 <= i < |names|
      ensures r.value[names[i]] == values[i - 1]
    {
      assert parts[|head| + (i - 1)] == values[i - 1];
    }
  }

  /** The values a decomposition assigned, in name order. */
  function ValuesInOrder(m: map<string, string>, names: seq<string>): (values: seq<string>)
    ensures |values| == |names|
  {
    seq(|names|, i requires 0 <= i < |names| => Lookup(m, names[i]))
  }

  /** With distinct names, the assembled values in name order are the parent followed by the trailing tokens. */
  lemma AssembledInOrder(parts: seq<string>, names: seq<string>)
    requires 1 <= |names| <= |parts| + 1 && Distinct(names)
    ensures var cut := |parts| - (|names| - 1);
            ValuesInOrder(Assemble(parts, names), names) == [Join(parts[..cut], Delimiter)] + parts[cut..]
  {
  }

  /** Joining a joined head with further pieces is joining everything at once. */
  lemma JoinHeadThenTail(head: seq<string>, tail: seq<string>)
    requires |head| >= 1
    ensures Join([Join(head, Delimiter)] + tail, Delimiter) == Join(head + tail, Delimiter)
  {
    if |tail| == 0 {
      assert head + tail == head;
    } else {
      assert ([Join(head, Delimiter)] + tail)[1..] == tail;
      JoinAppend(head, tail, Delimiter);
    }
  }

  /** A successful decomposition leaves a non-empty run of tokens for the parent. */
  lemma ParentHasTokens(parts: seq<string>, names: seq<string>)
    requires Fills(parts, |names|)
    ensures |parts| - (|names| - 1) >= 1
  {
  }

  /** On tokens: with at least one token left for the parent, the assembled values in name order join back to the tokens' join. */
  lemma RecomposeParts(parts: seq<string>, names: seq<string>)
    requires Distinct(names) && 1 <= |names| <= |parts|
    ensures Join(ValuesInOrder(Assemble(parts, names), names), Delimiter) == Join(parts, Delimiter)
  {
    var cut := |parts| - (|names| - 1);
    var head, tail := parts[..cut], parts[cut..];
    SliceRejoin(parts, cut);
    AssembledInOrder(parts, names);
    JoinHeadThenTail(head, tail);
    calc {
      Join(ValuesInOrder(Assemble(parts, names), names), Delimiter);
      Join([Join(head, Delimiter)] + tail, Delimiter);
      Join(head + tail, Delimiter);
      Join(parts, Delimiter);
    }
  }

  /** Cutting a sequence in two and putting the halves back together gives the sequence. */
  lemma SliceRejoin<T>(s: seq<T>, k: int)
    requires 0 <= k <= |s|
    ensures s[..k] + s[k..] == s
  {
  }

  /** Round trip from an id: composing what a successful decomposition returned, in name order, rebuilds the id. */
  lemma DecomposeThenCompose(id: string, names: seq<string>)
    requires |names| >= 1 && Distinct(names)
    requires |Split(id, Delimiter)| >= 2 ==> |names| - 1 <= |Split(id, Delimiter)|
    requires Decompose(id, names).Success?
    ensures Compose(ValuesInOrder(Decompose(id, names).value, names)) == id
  {
    var parts := Split(id, Delimiter);
    assert Decompose(id, names) == DecomposeParts(parts, names);
    ParentHasTokens(parts, names);
    RecomposeParts(parts, names);
    JoinSplit(id, Delimiter);
  }

  /** An id with no "/" at all never decomposes: there is no parent/name boundary. */
  lemma UndelimitedIdRejected(id: string, names: seq<string>)
    requires |names| >= 1 && Delimiter !in id
    ensures Split(id, Delimiter) == [id]
    ensures Decompose(id, names) == Failure(MalformedId(names))
  {
    SplitUndelimited(id, Delimiter);
  }

  /** The two-part ids of the variable resources: "<parent>/<child>" with a "/"-free child decomposes into its two parts. */
  lemma PairRoundTrip(first: string, second: string, parent: string, child: string)
    requires first != second
    requires parent != "" && child != "" && Delimiter !in child
    ensures Decompose(Compose([parent, child]), [first, second]) == Success(map[first := parent, second := child])
  {
    var names := [first, second];
    ComposeThenDecompose(parent, [child], names);
    assert [parent] + [child] == [parent, child];
    var m := Decompose(Compose([parent, child]), names).value;
    assert names[0] == first && names[1] == second;
    assert m.Keys == {first, second} by {
      assert forall n :: n in names <==> n == first || n == second;
    }
    PairMap(m, first, second, parent, child);
  }

  /** A map with exactly two keys is the two-entry map display of its values. */
  lemma PairMap(m: map<string, string>, first: string, second: string, x: string, y: string)
    requires m.Keys == {first, second} && first != second
    requires m[first] == x && m[second] == y
    ensures m == map[first := x, second := y]
  {
  }
}

=== FILE: errors.dfy ===
/**
 * Go error values as far as the provider inspects them: the HTTP error of the
 * REST client, the context-not-found sentinel, leaf messages, and the two ways
 * `fmt.Errorf` combines an error into a new one.
 */
module Errors {
  import opened Results

  datatype Error =
    /** `*rest.HTTPError`, carrying the response status code. */
    | HttpError(code: int)
    /** The sentinel `client.ErrContextNotFound`. */
    | ContextNotFound
    /** An error that wraps nothing: `errors.New`, `fmt.Errorf` without a wrapping verb, or one raised outside the model. */
    | Message(text: string)
    /** `fmt.Errorf("<prefix>: %w", cause)`: the cause stays reachable through `Unwrap`; `None` is a nil operand, which wraps nothing. */
    | Wrapped(prefix: string, cause: Option<Error>)
    /** `fmt.Errorf("<prefix>: %v", cause)`: only the cause's text survives, so the chain ends here. */
    | Flattened(prefix: string, cause: Option<Error>)

  /** `errors.Unwrap`. */
  function Unwrap(e: Error): Option<Error>
  {
    match e
    case Wrapped(_, cause) => cause
    case _ => None
  }

  /** The error followed by everything `Unwrap` reaches from it: the chain `errors.Is` and `errors.As` walk. */
  function Chain(e: Error): (c: seq<Error>)
    ensures |c| >= 1 && c[0] == e
  {
    match e
    case Wrapped(_, Some(inner)) => [e] + Chain(inner)
    case _ => [e]
  }

  /** `errors.Is(e, target)` for comparable errors: `e` or something it wraps equals `target`. */
  predicate Is(e: Error, target: Error)
  {
    e == target ||
    match e
    case Wrapped(_, Some(inner)) => Is(inner, target)
    case _ => false
  }

  /** `isNotFound` (circleci/client/client.go): the first HTTP error in the chain has status 404. */
  predicate IsNotFound(e: Error)
  {
    match e
    case HttpError(code) => code == 404
    case Wrapped(_, Some(inner)) => IsNotFound(inner)
    case _ => false
  }

  /** `Is` holds exactly when the target occurs on the unwrap chain. */
  lemma {:induction false} IsMeansOnChain(e: Error, target: Error)
    ensures Is(e, target) <==> target in Chain(e)
  {
    match e
    case Wrapped(_, Some(inner)) =>
      IsMeansOnChain(inner, target);
      assert Chain(e) == [e] + Chain(inner);
    case _ =>
  }

  /** `IsNotFound` holds exactly when an HTTP 404 error occurs on the unwrap chain. */
  lemma {:induction false} NotFoundMeansOnChain(e: Error)
    ensures IsNotFound(e) <==> HttpError(404) in Chain(e)
  {
    match e
    case Wrapped(_, Some(inner)) =>
      NotFoundMeansOnChain(inner);
      assert Chain(e) == [e] + Chain(inner);
    case HttpError(code) =>
      assert Chain(e) == [e];
    case _ =>
      assert Chain(e) == [e];
  }

  /** Wrapping with `%w` keeps a 404 visible; formatting with `%v` hides it. */
  lemma WrappingAndNotFound(prefix: string, e: Error)
    ensures IsNotFound(Wrapped(prefix, Some(e))) == IsNotFound(e)
    ensures !IsNotFound(Flattened(prefix, Some(e)))
    ensures Is(Wrapped(prefix, Some(e)), ContextNotFound) == Is(e, ContextNotFound)
    ensures !Is(Flattened(prefix, Some(e)), ContextNotFound)
  {
  }
}

=== FILE: project_checkout_keys.dfy ===
/**
 * Project checkout keys, `circleci/client/project_checkout_keys.go`. Each
 * operation first computes the project slug (a failure there is returned
 * before any request is built), then makes one REST call.
 */
module ProjectCheckoutKeys {
  import opened Results
  import opened Errors
  import opened Text
  import opened Client

  /** `CheckoutKey` as the service returns it. */
  datatype CheckoutKey = CheckoutKey(publicKey: string, keyType: string, fingerprint: string, preferred: bool, createdAt: string)

  /** Splitting "<a>/<middle>/<b>" for "/"-free ends. */
  lemma SplitBetween(a: string, middle: string, b: string)
    requires '/' !in a && '/' !in b
    ensures Split(a + "/" + middle + "/" + b, '/') == [a] + Split(middle, '/') + [b]
  {
    assert a + "/" + middle + "/" + b == a + ['/'] + (middle + ['/'] + b);
    SplitConcat(a, middle + ['/'] + b, '/');
    SplitConcat(middle, b, '/');
    SplitUndelimited(a, '/');
    SplitUndelimited(b, '/');
  }

  const Project := "project"
  const CheckoutKeys := "checkout-key"

  /** The collection of a project's checkout keys: "project/<slug>/checkout-key". */
  function KeysPath(slug: string): (path: string)
    ensures Split(path, '/') == [Project] + Split(slug, '/') + [CheckoutKeys]
  {
    assert '/' !in Project && '/' !in CheckoutKeys;
    SplitBetween(Project, slug, CheckoutKeys);
    Project + "/" + slug + "/" + CheckoutKeys
  }

  /** One key of a project: "project/<slug>/checkout-key/<fingerprint>". */
  function KeyPath(slug: string, fingerprint: string): (path: string)
    ensures Split(path, '/') == [Project] + Split(slug, '/') + [CheckoutKeys] + Split(fingerprint, '/')
  {
    SplitConcat(KeysPath(slug), fingerprint, '/');
    KeysPath(slug) + "/" + fingerprint
  }

  /**
   * `HasProjectCheckoutKey`: any rejected request, whatever its status,
   * reads as "no such key"; only a slug or request-building failure is an error.
   */
  function Has(slug: Result<string, Error>, fingerprint: string, rest: Rest<CheckoutKey>): (r: Result<bool, Error>)
    ensures slug.Failure? ==> r == Failure(slug.error)
    ensures slug.Success? ==>
              var x := rest(Request("GET", KeyPath(slug.value, fingerprint), NoBody));
              && (x.Unbuilt? ==> r == Failure(x.err))
              && (x.Answered? ==> r == Success(true))
              && (x.Rejected? ==> r == Success(false))
  {
    match slug
    case Failure(e) => Failure(e)
    case Success(s) =>
      match rest(Request("GET", KeyPath(s, fingerprint), NoBody))
      case Unbuilt(e) => Failure(e)
      case Answered(_) => Success(true)
      case Rejected(_, _) => Success(false)
  }

  /** `GetCheckoutKey`: the key as returned, or the slug or request error unchanged. */
  function Get(slug: Result<string, Error>, fingerprint: string, rest: Rest<CheckoutKey>): (r: Result<CheckoutKey, Error>)
    ensures slug.Failure? ==> r == Failure(slug.error)
    ensures slug.Success? ==>
              var x := rest(Request("GET", KeyPath(slug.value, fingerprint), NoBody));
              && (r.Success? <==> x.Answered?)
              && (r.Success? ==> r.value == x.value)
              && (r.Failure? ==> r.error == x.err)
  {
    match slug
    case Failure(e) => Failure(e)
    case Success(s) => Settle(rest(Request("GET", KeyPath(s, fingerprint), NoBody)))
  }

  /** `CreateCheckoutKey`: POSTs the key type to the project's key collection. */
  function Create(slug: Result<string, Error>, keyType: string, rest: Rest<CheckoutKey>): (r: Result<CheckoutKey, Error>)
    ensures slug.Failure? ==> r == Failure(slug.error)
    ensures slug.Success? ==>
              var x := rest(Request("POST", KeysPath(slug.value), NewCheckoutKey(keyType)));
              && (r.Success? <==> x.Answered?)
              && (r.Success? ==> r.value == x.value)
              && (r.Failure? ==> r.error == x.err)
  {
    match slug
    case Failure(e) => Failure(e)
    case Success(s) => Settle(rest(Request("POST", KeysPath(s), NewCheckoutKey(keyType))))
  }

  /** `DeleteCheckoutKey`: the error of the DELETE on the key's path, nil on success. */
  function Delete(slug: Result<string, Error>, fingerprint: string, rest: Rest<CheckoutKey>): (r: Option<Error>)
    ensures slug.Failure? ==> r == Some(slug.error)
    ensures slug.Success? ==>
              var x := rest(Request("DELETE", KeyPath(slug.value, fingerprint), NoBody));
              && (r.None? <==> x.Answered?)
              && (r.Some? ==> r.value == x.err)
  {
    match slug
    case Failure(e) => Some(e)
    case Success(s) =>
      match rest(Request("DELETE", KeyPath(s, fingerprint), NoBody))
      case Answered(_) => None
      case Unbuilt(e) => Some(e)
      case Rejected(_, e) => Some(e)
  }

  /**
   * `Has` and `Get` ask the same question: for a built request, `Has` says
   * true exactly when `Get` returns a key, and false whenever `Get` fails.
   */
  lemma HasAgreesWithGet(slug: Result<string, Error>, fingerprint: string, rest: Rest<CheckoutKey>)
    requires slug.Success?
    requires !rest(Request("GET", KeyPath(slug.value, fingerprint), NoBody)).Unbuilt?
    ensures Has(slug, fingerprint, rest) == Success(Get(slug, fingerprint, rest).Success?)
  {
  }
}

=== FILE: resource_checkout_key.dfy ===
/**
 * The `circleci_checkout_key` resource,
 * `circleci/resource_circleci_checkout_key.go`: a checkout key with id
 * ORGANIZATION.PROJECT.TYPE.FINGERPRINT. Import passes the id straight to
 * Read, which fills the attributes from the id when it has no fingerprint.
 */
module CheckoutKeyResource {
  import opened Results
  import opened Errors
  import opened Text
  import opened Schema
  import opened Client
  import opened CheckoutKeyId
  import opened ProjectCheckoutKeys

  /** What the resource needs from its client. */
  datatype KeyService = KeyService(
    /** `Organization(given)`: resolves the organization attribute, possibly empty, to the one to use. */
    organization: string -> Result<string, Error>,
    /** The REST endpoint the checkout-key requests go to. */
    rest: Rest<CheckoutKey>)

  function Organization(d: ResourceData): string { GetString(d, "organization") }
  function Project(d: ResourceData): string { GetString(d, "project") }
  function KeyType(d: ResourceData): string { GetString(d, "type") }
  function Fingerprint(d: ResourceData): string { GetString(d, "fingerprint") }

  const IdHint := "error calculating circleci_checkout_key. Please make sure the ID is in the form ORGANIZATION.PROJECTNAME.TYPE.FINGERPRINT (i.e. foo.bar.type.my_fingerprint)"
  const ReadFailed := "failed to get project checkout key"
  const DeleteFailed := "failed to delete project checkout key"

  /**
   * `setOrgProjectNameFromCheckoutKeyId`: sets organization, project, type and
   * fingerprint from the id when all four parsed parts are non-empty, and
   * otherwise fails with the expected shape, setting nothing.
   */
  function SetFromId(d: ResourceData): (r: Result<ResourceData, Error>)
    ensures r.Success? <==> Complete(Parse(d.id))
    ensures r.Failure? ==> r.error == Message(IdHint)
    ensures |Split(d.id, Dot)| <= 3 ==> r == Failure(Message(IdHint))
    ensures r.Success? ==>
              && r.value.id == d.id
              && Organization(r.value) == Parse(d.id).organization
              && Project(r.value) == Parse(d.id).project
              && KeyType(r.value) == Parse(d.id).keyType
              && Fingerprint(r.value) == Parse(d.id).fingerprint
              && Generate(Organization(r.value), Project(r.value), KeyType(r.value), Fingerprint(r.value)) == d.id
  {
    var k := Parse(d.id);
    if k.organization == "" || k.project == "" || k.keyType == "" || k.fingerprint == ""
    then Failure(Message(IdHint))
    else
      CompleteRegenerates(d.id);
      Success(Set(Set(Set(Set(d, "organization", Str(k.organization)), "project", Str(k.project)), "fingerprint", Str(k.fingerprint)), "type", Str(k.keyType)))
  }

  /** The attributes Create and Read copy from the key the service returned. */
  const Recorded: set<string> := {"fingerprint", "public_key", "preferred", "created_at"}

  /**
   * Copies the returned key's fingerprint, public key, preferred flag and
   * creation time into the data; the id and every other attribute stay.
   */
  function Record(d: ResourceData, key: CheckoutKey): (r: ResourceData)
    ensures r.id == d.id
    ensures r.fields.Keys == d.fields.Keys + Recorded
    ensures forall k :: k in d.fields && k !in Recorded ==> r.fields[k] == d.fields[k]
    ensures Organization(r) == Organization(d) && Project(r) == Project(d) && KeyType(r) == KeyType(d)
    ensures Fingerprint(r) == key.fingerprint
    ensures GetString(r, "public_key") == key.publicKey
    ensures "preferred" in r.fields && r.fields["preferred"] == Flag(key.preferred)
    ensures GetString(r, "created_at") == key.createdAt
  {
    d.(fields := d.fields["fingerprint" := Str(key.fingerprint)]["public_key" := Str(key.publicKey)]
                         ["preferred" := Flag(key.preferred)]["created_at" := Str(key.createdAt)])
  }

  /**
   * Where Read starts: the data as given when it has a fingerprint; otherwise
   * (an import) the four attributes parsed from the id, which succeeds
   * exactly when all four parts are non-empty.
   */
  function ReadStart(d: ResourceData): (r: Result<ResourceData, Error>)
    ensures GetOk(d, "fingerprint") ==> r == Success(d)
    ensures !GetOk(d, "fingerprint") ==> (r.Success? <==> Complete(Parse(d.id)))
    ensures r.Failure? ==> r.error == Message(IdHint)
    ensures r.Success? ==> r.value.id == d.id
    ensures !GetOk(d, "fingerprint") && r.Success? ==>
              && Organization(r.value) == Parse(d.id).organization
              && Project(r.value) == Parse(d.id).project
              && KeyType(r.value) == Parse(d.id).keyType
              && Fingerprint(r.value) == Parse(d.id).fingerprint
  {
    if GetOk(d, "fingerprint") then Success(d) else SetFromId(d)
  }

  /**
   * Read: never clears the id. Without a fingerprint it first fills the
   * attributes from the id; then it fetches the key of the resolved
   * organization's project and copies it in, or reports a wrapped error.
   */
  function Read(d: ResourceData, c: Config, svc: KeyService): (r: Applied)
    ensures r.data.id == d.id
    ensures GetOk(d, "fingerprint") ==>
              Organization(r.data) == Organization(d) && Project(r.data) == Project(d) && KeyType(r.data) == KeyType(d)
    ensures !GetOk(d, "fingerprint") && !Complete(Parse(d.id)) ==> r == Applied(d, Some(Message(IdHint)))
    ensures !GetOk(d, "fingerprint") && Complete(Parse(d.id)) ==>
              && Organization(r.data) == Parse(d.id).organization
              && Project(r.data) == Parse(d.id).project
              && KeyType(r.data) == Parse(d.id).keyType
    ensures var start := ReadStart(d);
            start.Success? && svc.organization(Organization(start.value)).Failure? ==>
              r == Applied(start.value, Some(svc.organization(Organization(start.value)).error))
    ensures var start := ReadStart(d);
            start.Success? && svc.organization(Organization(start.value)).Success? ==>
              var org := svc.organization(Organization(start.value)).value;
              var got := Get(ProjectSlug(c.vcs, org, Project(start.value)), Fingerprint(start.value), svc.rest);
              && (got.Failure? ==> r == Applied(start.value, Some(Wrapped(ReadFailed, Some(got.error)))))
              && (got.Success? ==> r == Applied(Record(start.value, got.value), None))
  {
    match ReadStart(d)
    case Failure(e) => Applied(d, Some(e))
    case Success(d1) =>
      match svc.organization(Organization(d1))
      case Failure(e) => Applied(d1, Some(e))
      case Success(org) =>
        match Get(ProjectSlug(c.vcs, org, Project(d1)), Fingerprint(d1), svc.rest)
        case Failure(e) => Applied(d1, Some(Wrapped(ReadFailed, Some(e))))
        case Success(key) => Applied(Record(d1, key), None)
  }

  /**
   * Create: resolves the organization and creates a key of the configured
   * type; on success the id is generated from the resolved organization,
   * project, type and the fingerprint the service assigned, and Read runs.
   * Any failure before that leaves the data as it was.
   */
  function Create(d: ResourceData, c: Config, svc: KeyService): (r: Applied)
    ensures svc.organization(Organization(d)).Failure? ==> r == Applied(d, Some(svc.organization(Organization(d)).error))
    ensures svc.organization(Organization(d)).Success? ==>
              var org := svc.organization(Organization(d)).value;
              var made := ProjectCheckoutKeys.Create(ProjectSlug(c.vcs, org, Project(d)), KeyType(d), svc.rest);
              && (made.Failure? ==> r == Applied(d, Some(made.error)))
              && (made.Success? ==>
                    r.data.id == Generate(org, Project(d), KeyType(d), made.value.fingerprint)
                    && r == Read(Record(SetId(d, r.data.id), made.value), c, svc))
    ensures r.data.id != d.id ==> svc.organization(Organization(d)).Success?
  {
    match svc.organization(Organization(d))
    case Failure(e) => Applied(d, Some(e))
    case Success(org) =>
      match ProjectCheckoutKeys.Create(ProjectSlug(c.vcs, org, Project(d)), KeyType(d), svc.rest)
      case Failure(e) => Applied(d, Some(e))
      case Success(key) => Read(Record(SetId(d, Generate(org, Project(d), KeyType(d), key.fingerprint)), key), c, svc)
  }

  /** Delete: clears the id exactly when the organization resolved and the remote delete succeeded. */
  function Delete(d: ResourceData, c: Config, svc: KeyService): (r: Applied)
    ensures FailureKeepsId(d, r)
    ensures r.data.fields == d.fields
    ensures r.err.None? ==> r.data.id == ""
    ensures svc.organization(Organization(d)).Failure? ==> r == Applied(d, Some(svc.organization(Organization(d)).error))
    ensures svc.organization(Organization(d)).Success? ==>
              var org := svc.organization(Organization(d)).value;
              var deleted := ProjectCheckoutKeys.Delete(ProjectSlug(c.vcs, org, Project(d)), Fingerprint(d), svc.rest);
              && (r.err.None? <==> deleted.None?)
              && (r.err.Some? ==> r.err.value.Wrapped? && r.err.value.prefix == DeleteFailed && Unwrap(r.err.value) == deleted)
  {
    match svc.organization(Organization(d))
    case Failure(e) => Applied(d, Some(e))
    case Success(org) =>
      match ProjectCheckoutKeys.Delete(ProjectSlug(c.vcs, org, Project(d)), Fingerprint(d), svc.rest)
      case Some(e) => Applied(d, Some(Wrapped(DeleteFailed, Some(e))))
      case None => Applied(SetId(d, ""), None)
  }

  /**
   * The id Create writes parses back into the resolved organization, the
   * project, the type and the assigned fingerprint, when the organization,
   * type and fingerprint hold no ".".
   */
  lemma CreatedIdParses(d: ResourceData, c: Config, svc: KeyService)
    requires svc.organization(Organization(d)).Success?
    requires ProjectCheckoutKeys.Create(ProjectSlug(c.vcs, svc.organization(Organization(d)).value, Project(d)), KeyType(d), svc.rest).Success?
    requires var org := svc.organization(Organization(d)).value;
             var key := ProjectCheckoutKeys.Create(ProjectSlug(c.vcs, org, Project(d)), KeyType(d), svc.rest).value;
             Dot !in org && Dot !in KeyType(d) && Dot !in key.fingerprint
    ensures var org := svc.organization(Organization(d)).value;
            var key := ProjectCheckoutKeys.Create(ProjectSlug(c.vcs, org, Project(d)), KeyType(d), svc.rest).value;
            Parse(Create(d, c, svc).data.id) == KeyId(org, Project(d), KeyType(d), key.fingerprint)
  {
    var org := svc.organization(Organization(d)).value;
    var key := ProjectCheckoutKeys.Create(ProjectSlug(c.vcs, org, Project(d)), KeyType(d), svc.rest).value;
    ParseGenerate(org, Project(d), KeyType(d), key.fingerprint);
  }

  /**
   * Importing by id: a resource holding only an id generated from non-empty
   * parts, the organization, type and fingerprint free of ".", reads those
   * parts into its attributes, whatever the service then answers.
   */
  lemma ImportReadsIdParts(id: string, organization: string, project: string, keyType: string, fingerprint: string, c: Config, svc: KeyService)
    requires organization != "" && project != "" && keyType != "" && fingerprint != ""
    requires Dot !in organization && Dot !in keyType && Dot !in fingerprint
    requires id == Generate(organization, project, keyType, fingerprint)
    ensures var r := Read(ResourceData(id, map[]), c, svc);
            && r.data.id == id
            && Organization(r.data) == organization
            && Project(r.data) == project
            && KeyType(r.data) == keyType
  {
    ParseGenerate(organization, project, keyType, fingerprint);
  }
}

=== FILE: resource_context.dfy ===
/**
 * The `circleci_context` resource, `circleci/resource_circleci_context.go`:
 * a context identified by its server-assigned id, with its name as the one
 * attribute.
 */
module ContextResource {
  import opened Results
  import opened Errors
  import opened Schema
  import opened Client
  import opened Contexts

  function Name(d: ResourceData): string { GetString(d, "name") }

  const CreateFailed := "error creating context"
  const DeleteFailed := "error deleting context"
  const Missing := "context does not exist"

  /**
   * Read: fetches the context by id. Not-found clears the id and is not an
   * error; any other failure is returned as it came and keeps the id; a
   * successful fetch copies the remote name into the attributes.
   */
  function Read(d: ResourceData, rest: Rest<Context>): (r: Applied)
    ensures ReadShape(d, r) && FailureKeepsId(d, r)
    ensures var x := rest(ContextRequest(d.id));
            && (x.Answered? ==> r.err.None? && r.data.id == d.id && Name(r.data) == x.value.name)
            && (x.Answered? ==> r.data.fields.Keys == d.fields.Keys + {"name"})
            && (x.Answered? ==> forall k :: k in d.fields && k != "name" ==> r.data.fields[k] == d.fields[k])
            && (!x.Answered? ==> r.data.fields == d.fields)
            && (x.Rejected? && x.status == 404 ==> r == Applied(SetId(d, ""), None))
            && (Foreign(x) && !x.Answered? && !(x.Rejected? && x.status == 404) ==> r == Applied(d, Some(x.err)))
            && (Foreign(x) && r.data.id != d.id ==> x.Rejected? && x.status == 404)
  {
    match GetContext(rest, d.id)
    case Failure(e) => if Is(e, ContextNotFound) then Applied(SetId(d, ""), None) else Applied(d, Some(e))
    case Success(ctx) => Applied(Set(d, "name", Str(ctx.name)), None)
  }

  /**
   * Create: creates a context with the configured name; on success the id
   * becomes the server-assigned id and Read runs; on failure nothing changes.
   */
  function Create(d: ResourceData, c: Config, rest: Rest<Context>): (r: Applied)
    ensures var x := rest(CreateContextRequest(c, Name(d)));
            && (!x.Answered? ==> r == Applied(d, Some(Wrapped(CreateFailed, Some(x.err)))))
            && (x.Answered? ==> r == Read(SetId(d, x.value.id), rest))
            && (r.data.id != d.id ==> x.Answered? && (r.data.id == x.value.id || r.data.id == ""))
  {
    match CreateContext(c, rest, Name(d))
    case Failure(e) => Applied(d, Some(Wrapped(CreateFailed, Some(e))))
    case Success(ctx) => Read(SetId(d, ctx.id), rest)
  }

  /** Delete: reports a failed delete, and in no case touches the id or the attributes. */
  function Delete(d: ResourceData, up: Upstream): (r: Applied)
    ensures r.data == d
    ensures (r.err.None? <==> up.deleteContext(d.id).None?)
    ensures r.err.Some? ==> r.err.value.Wrapped? && r.err.value.prefix == DeleteFailed && Unwrap(r.err.value) == up.deleteContext(d.id)
  {
    match up.deleteContext(d.id)
    case Some(e) => Applied(d, Some(Wrapped(DeleteFailed, Some(e))))
    case None => Applied(d, None)
  }

  /**
   * Import: the supplied id is a context name; a failed lookup is "context
   * does not exist", a successful one replaces the id by the server id and
   * sets the name.
   */
  function Import(d: ResourceData, c: Config, up: Upstream): (r: Result<ResourceData, Error>)
    ensures var lookup := up.contextByName(c.vcs, c.organization, d.id);
            && (lookup.Failure? ==> r.Failure? && r.error.Wrapped? && r.error.prefix == Missing && Unwrap(r.error) == Some(lookup.error))
            && (lookup.Success? ==> r.Success? && r.value.id == lookup.value.id && Name(r.value) == lookup.value.name)
            && (r.Success? ==> r.value.fields.Keys == d.fields.Keys + {"name"})
            && (r.Success? ==> forall k :: k in d.fields && k != "name" ==> r.value.fields[k] == d.fields[k])
  {
    match GetContextByName(c, up, d.id)
    case Failure(e) => Failure(Wrapped(Missing, Some(e)))
    case Success(ctx) => Success(Set(SetId(d, ctx.id), "name", Str(ctx.name)))
  }

  /**
   * An imported context is stable under refresh: when fetching its id
   * returns the context the name lookup found, Read changes nothing.
   */
  lemma ImportThenRead(d: ResourceData, c: Config, up: Upstream, rest: Rest<Context>)
    requires up.contextByName(c.vcs, c.organization, d.id).Success?
    requires rest(ContextRequest(up.contextByName(c.vcs, c.organization, d.id).value.id))
          == Answered(up.contextByName(c.vcs, c.organization, d.id).value)
    ensures Read(Import(d, c, up).value, rest) == Applied(Import(d, c, up).value, None)
  {
  }
}

=== FILE: resource_context_environment_variable.dfy ===
/**
 * The `circleci_context_environment_variable` resource,
 * `circleci/resource_circleci_context_environment_variable.go`: a variable
 * of a context, with id "<context name>/<name>". Create doubles as Update,
 * because the upstream call is an upsert.
 */
module ContextEnvironmentVariableResource {
  import opened Results
  import opened Errors
  import opened Text
  import opened ElementId
  import opened Schema
  import opened Client
  import opened Contexts
  import ContextEnvironment

  /** The names the id decomposes into on import. */
  const Shape: seq<string> := ["context", "name"]

  function ContextName(d: ResourceData): string { GetString(d, "context") }
  function Name(d: ResourceData): string { GetString(d, "name") }
  function Secret(d: ResourceData): string { GetString(d, "value") }

  const StoreFailed := "error storing environment variable"
  const ReadFailed := "failed to get context environment variables"
  const DeleteFailed := "error deleting environment variable"
  const Missing := "environment variable does not exist"

  /**
   * Read: clears the id, without error, exactly when the client reports the
   * variable absent; a failed check is reported and keeps the id.
   */
  function Read(d: ResourceData, c: Config, up: Upstream): (r: Applied)
    ensures ReadShape(d, r) && FailureKeepsId(d, r)
    ensures r.data.fields == d.fields
    ensures var has := ContextEnvironment.Has(c, up, ContextName(d), Name(d));
            && (r.err.Some? <==> has.Failure?)
            && (r.err.Some? ==> r.err.value.Wrapped? && r.err.value.prefix == ReadFailed && Unwrap(r.err.value) == Some(has.error))
            && (r.data.id != d.id ==> has == Success(false))
            && (has == Success(false) ==> r.data.id == "")
            && (has == Success(true) ==> r == Applied(d, None))
  {
    match ContextEnvironment.Has(c, up, ContextName(d), Name(d))
    case Failure(e) => Applied(d, Some(Wrapped(ReadFailed, Some(e))))
    case Success(present) => if present then Applied(d, None) else Applied(SetId(d, ""), None)
  }

  /**
   * Create, and equally Update: upserts the variable without checking
   * whether it exists; after a successful write it sets the id to
   * "<context>/<name>" and runs Read against the service as it is afterwards.
   */
  function Create(d: ResourceData, c: Config, now: Upstream, later: Upstream): (r: Applied)
    ensures r.data.fields == d.fields
    ensures var stored := ContextEnvironment.CreateOrUpdate(c, now, ContextName(d), Name(d), Secret(d)).err;
            && (r.data.id != d.id ==> stored.None?)
            && (stored.Some? ==> r == Applied(d, Some(Wrapped(StoreFailed, stored))))
            && (stored.None? ==> r == Read(SetId(d, Compose([ContextName(d), Name(d)])), c, later))
  {
    match ContextEnvironment.CreateOrUpdate(c, now, ContextName(d), Name(d), Secret(d)).err
    case Some(e) => Applied(d, Some(Wrapped(StoreFailed, Some(e))))
    case None => Read(SetId(d, Compose([ContextName(d), Name(d)])), c, later)
  }

  /** Delete: reports a failed delete, and in no case touches the id or the attributes. */
  function Delete(d: ResourceData, c: Config, up: Upstream): (r: Applied)
    ensures r.data == d
    ensures var deleted := ContextEnvironment.Delete(c, up, ContextName(d), Name(d)).err;
            && (r.err.None? <==> deleted.None?)
            && (r.err.Some? ==> r.err.value.Wrapped? && r.err.value.prefix == DeleteFailed && Unwrap(r.err.value) == deleted)
  {
    match ContextEnvironment.Delete(c, up, ContextName(d), Name(d)).err
    case Some(e) => Applied(d, Some(Wrapped(DeleteFailed, Some(e))))
    case None => Applied(d, None)
  }

  /**
   * Import: the id must decompose into context and name and the variable
   * must exist; the "does not exist" error is formatted with `%v`, so its
   * cause is not on the chain. On success both attributes come from the id.
   */
  function Import(d: ResourceData, c: Config, up: Upstream): (r: Result<ResourceData, Error>)
    ensures |Split(d.id, Delimiter)| < 2 ==> r == Failure(MalformedId(Shape))
    ensures var parts := Decompose(d.id, Shape);
            && (parts.Failure? ==> r == Failure(parts.error))
            && (parts.Success? && ContextEnvironment.Has(c, up, parts.value["context"], parts.value["name"]) == Success(true) ==> r.Success?)
            && (parts.Success? && ContextEnvironment.Has(c, up, parts.value["context"], parts.value["name"]) != Success(true) ==>
                  r.Failure? && r.error.Flattened? && r.error.prefix == Missing && Unwrap(r.error).None?)
            && (r.Success? ==>
                  && parts.Success?
                  && ContextEnvironment.Has(c, up, parts.value["context"], parts.value["name"]) == Success(true)
                  && r.value.id == d.id
                  && ContextName(r.value) == parts.value["context"]
                  && Name(r.value) == parts.value["name"])
  {
    match Decompose(d.id, Shape)
    case Failure(e) => Failure(e)
    case Success(parts) =>
      match ContextEnvironment.Has(c, up, parts["context"], parts["name"])
      case Success(true) => Success(Set(Set(d, "context", Str(parts["context"])), "name", Str(parts["name"])))
      case Success(false) => Failure(Flattened(Missing, None))
      case Failure(e) => Failure(Flattened(Missing, Some(e)))
  }

  /** A successful import leaves attributes from which Create would compose exactly the imported id. */
  lemma ImportRecomposesId(d: ResourceData, c: Config, up: Upstream)
    requires Import(d, c, up).Success?
    ensures Compose([ContextName(Import(d, c, up).value), Name(Import(d, c, up).value)]) == d.id
  {
    DecomposeThenCompose(d.id, Shape);
    var m := Decompose(d.id, Shape).value;
    assert ValuesInOrder(m, Shape) == [m["context"], m["name"]];
  }

  /**
   * Importing a variable right after creating it reproduces the created
   * state, provided the context name is non-empty and the variable name is
   * a non-empty, "/"-free string.
   */
  lemma CreateThenImport(d: ResourceData, c: Config, now: Upstream, later: Upstream, up: Upstream)
    requires ContextName(d) != "" && Name(d) != "" && Delimiter !in Name(d)
    requires Create(d, c, now, later).data.id != d.id
    requires Create(d, c, now, later).data.id != ""
    requires ContextEnvironment.Has(c, up, ContextName(d), Name(d)) == Success(true)
    ensures Import(Create(d, c, now, later).data, c, up) == Success(Create(d, c, now, later).data)
  {
    var created := Create(d, c, now, later).data;
    var id := Compose([ContextName(d), Name(d)]);
    assert Read(SetId(d, id), c, later).data.id == id || Read(SetId(d, id), c, later).data.id == "";
    assert created.id == id;
    PairRoundTrip("context", "name", ContextName(d), Name(d));
    assert "context" in created.fields && created.fields["context"] == Str(ContextName(d));
    assert "name" in created.fields && created.fields["name"] == Str(Name(d));
    assert Set(Set(created, "context", Str(ContextName(d))), "name", Str(Name(d))) == created;
  }
}

=== FILE: resource_environment_variable.dfy ===
/**
 * The `circleci_environment_variable` resource,
 * `circleci/resource_circleci_environment_variable.go`: a project
 * environment variable with id "<project>/<name>". The project variable
 * client functions are not part of this model and appear as oracles.
 */
module EnvironmentVariableResource {
  import opened Results
  import opened Errors
  import opened Text
  import opened ElementId
  import opened Schema

  /** The project environment variable client calls, each answered by an oracle. */
  datatype ProjectVariables = ProjectVariables(
    /** `HasProjectEnvironmentVariable(project, name)`. */
    has: (string, string) -> Result<bool, Error>,
    /** `CreateProjectEnvironmentVariable(project, name, value)`. */
    create: (string, string, string) -> Option<Error>,
    /** `DeleteProjectEnvironmentVariable(project, name)`. */
    delete: (string, string) -> Option<Error>)

  /** A write the resource sends: `CreateProjectEnvironmentVariable(project, name, value)`. */
  datatype Write = NewVariable(project: string, name: string, value: string)

  /** What Create did: the data and error it returns, and the writes it sent. */
  datatype Created = Created(result: Applied, writes: seq<Write>)

  /** The names the id decomposes into on import. */
  const Shape: seq<string> := ["project", "name"]

  function Project(d: ResourceData): string { GetString(d, "project") }
  function Name(d: ResourceData): string { GetString(d, "name") }
  function Secret(d: ResourceData): string { GetString(d, "value") }

  function AlreadyExists(name: string): Error
  {
    Message("environment variable already exists: " + name)
  }

  const ReadFailed := "failed to get project environment variable"
  const CreateFailed := "failed to create environment variable"
  const DeleteFailed := "failed to delete project environment variable"
  const Missing := "environment variable does not exist"

  /**
   * Read: clears the id, without error, exactly when the variable is
   * confirmed absent; a failed check is reported and keeps the id.
   */
  function Read(d: ResourceData, vars: ProjectVariables): (r: Applied)
    ensures ReadShape(d, r) && FailureKeepsId(d, r)
    ensures r.data.fields == d.fields
    ensures var has := vars.has(Project(d), Name(d));
            && (r.err.Some? <==> has.Failure?)
            && (r.err.Some? ==> r.err.value.Wrapped? && r.err.value.prefix == ReadFailed && Unwrap(r.err.value) == Some(has.error))
            && (r.data.id != d.id ==> has == Success(false))
            && (has == Success(false) ==> r.data.id == "")
            && (has == Success(true) ==> r == Applied(d, None))
  {
    match vars.has(Project(d), Name(d))
    case Failure(e) => Applied(d, Some(Wrapped(ReadFailed, Some(e))))
    case Success(present) => if present then Applied(d, None) else Applied(SetId(d, ""), None)
  }

  /**
   * Create: refuses a variable that already exists, or whose existence
   * could not be checked, without writing; otherwise it writes the variable
   * once, and after a successful write sets the id to "<project>/<name>" and
   * runs Read against the service as it is afterwards (`later`).
   */
  function Create(d: ResourceData, now: ProjectVariables, later: ProjectVariables): (r: Created)
    ensures r.result.data.fields == d.fields
    ensures var has := now.has(Project(d), Name(d));
            var created := now.create(Project(d), Name(d), Secret(d));
            && (has != Success(false) ==> r.writes == [])
            && (has == Success(false) ==> r.writes == [NewVariable(Project(d), Name(d), Secret(d))])
            && (has.Failure? ==> r.result == Applied(d, Some(has.error)))
            && (has == Success(true) ==> r.result == Applied(d, Some(AlreadyExists(Name(d)))))
            && (r.result.data.id != d.id ==> has == Success(false) && created.None?)
            && (has == Success(false) && created.Some? ==> r.result == Applied(d, Some(Wrapped(CreateFailed, created))))
            && (has == Success(false) && created.None? ==> r.result == Read(SetId(d, Compose([Project(d), Name(d)])), later))
  {
    var project, name := Project(d), Name(d);
    match now.has(project, name)
    case Failure(e) => Created(Applied(d, Some(e)), [])
    case Success(present) =>
      if present then Created(Applied(d, Some(AlreadyExists(name))), [])
      else
        var writes := [NewVariable(project, name, Secret(d))];
        match now.create(project, name, Secret(d))
        case Some(e) => Created(Applied(d, Some(Wrapped(CreateFailed, Some(e)))), writes)
        case None => Created(Read(SetId(d, Compose([project, name])), later), writes)
  }

  /** Delete: clears the id exactly when the remote delete succeeded. */
  function Delete(d: ResourceData, vars: ProjectVariables): (r: Applied)
    ensures FailureKeepsId(d, r)
    ensures r.data.fields == d.fields
    ensures var deleted := vars.delete(Project(d), Name(d));
            && (r.err.None? <==> deleted.None?)
            && (r.err.None? ==> r.data.id == "")
            && (r.err.Some? ==> r.err.value.Wrapped? && r.err.value.prefix == DeleteFailed && Unwrap(r.err.value) == deleted)
  {
    match vars.delete(Project(d), Name(d))
    case Some(e) => Applied(d, Some(Wrapped(DeleteFailed, Some(e))))
    case None => Applied(SetId(d, ""), None)
  }

  /**
   * Import: the id must decompose into project and name and the variable
   * must exist; then both attributes are set from the id, which is kept.
   */
  function Import(d: ResourceData, vars: ProjectVariables): (r: Result<ResourceData, Error>)
    ensures |Split(d.id, Delimiter)| < 2 ==> r == Failure(MalformedId(Shape))
    ensures var parts := Decompose(d.id, Shape);
            && (parts.Failure? ==> r == Failure(parts.error))
            && (parts.Success? ==>
                  var has := vars.has(parts.value["project"], parts.value["name"]);
                  && (has == Success(true) ==> r.Success?)
                  && (has != Success(true) ==> r == Failure(Wrapped(Missing, if has.Failure? then Some(has.error) else None))))
            && (r.Success? ==>
                  && parts.Success?
                  && vars.has(parts.value["project"], parts.value["name"]) == Success(true)
                  && r.value.id == d.id
                  && Project(r.value) == parts.value["project"]
                  && Name(r.value) == parts.value["name"])
  {
    match Decompose(d.id, Shape)
    case Failure(e) => Failure(e)
    case Success(parts) =>
      var project, name := parts["project"], parts["name"];
      match vars.has(project, name)
      case Success(true) => Success(Set(Set(d, "project", Str(project)), "name", Str(name)))
      case Success(false) => Failure(Wrapped(Missing, None))
      case Failure(e) => Failure(Wrapped(Missing, Some(e)))
  }

  /** A successful import leaves attributes from which Create would compose exactly the imported id. */
  lemma ImportRecomposesId(d: ResourceData, vars: ProjectVariables)
    requires Import(d, vars).Success?
    ensures Compose([Project(Import(d, vars).value), Name(Import(d, vars).value)]) == d.id
  {
    DecomposeThenCompose(d.id, Shape);
    var m := Decompose(d.id, Shape).value;
    assert ValuesInOrder(m, Shape) == [m["project"], m["name"]];
  }

  /**
   * The id Create writes decomposes back into the project and name it was
   * built from, provided the project is non-empty and the name is a
   * non-empty, "/"-free string.
   */
  lemma CreatedIdDecomposes(d: ResourceData, now: ProjectVariables, later: ProjectVariables)
    requires Project(d) != "" && Name(d) != "" && Delimiter !in Name(d)
    requires Create(d, now, later).result.data.id != d.id
    requires Create(d, now, later).result.data.id != ""
    ensures Create(d, now, later).result.data.id == Compose([Project(d), Name(d)])
    ensures Decompose(Create(d, now, later).result.data.id, Shape) == Success(map["project" := Project(d), "name" := Name(d)])
  {
    var id := Compose([Project(d), Name(d)]);
    var r := Read(SetId(d, id), later);
    assert r.data.id == id || r.data.id == "";
    PairRoundTrip("project", "name", Project(d), Name(d));
  }

  /**
   * Importing a variable right after creating it reproduces the created
   * state: same id, same attributes.
   */
  lemma CreateThenImport(d: ResourceData, now: ProjectVariables, later: ProjectVariables, vars: ProjectVariables)
    requires Project(d) != "" && Name(d) != "" && Delimiter !in Name(d)
    requires Create(d, now, later).result.data.id != d.id
    requires Create(d, now, later).result.data.id != ""
    requires vars.has(Project(d), Name(d)) == Success(true)
    ensures Import(Create(d, now, later).result.data, vars) == Success(Create(d, now, later).result.data)
  {
    var c := Create(d, now, later).result.data;
    CreatedIdDecomposes(d, now, later);
    assert "project" in c.fields && c.fields["project"] == Str(Project(d));
    assert "name" in c.fields && c.fields["name"] == Str(Name(d));
    assert Set(Set(c, "project", Str(Project(d))), "name", Str(Name(d))) == c;
  }
}

=== FILE: results.dfy ===
/** Failure-carrying wrappers shared by every module of the model. */
module Results {

  /** A value that may be missing; `None` also stands for Go's nil error. */
  datatype Option<T> = None | Some(value: T)

  /** The Go pair `(value, err)` with exactly one side meaningful. */
  datatype Result<T, E> = Success(value: T) | Failure(error: E)
}

=== FILE: schema.dfy ===
/**
 * Terraform's `schema.ResourceData`, as the lifecycle functions use it: an
 * id (empty meaning "no remote object") and a map of attribute values.
 */
module Schema {
  import opened Results
  import opened Errors

  /** The attribute kinds the provider stores. */
  datatype Value = Str(text: string) | Flag(on: bool)

  datatype ResourceData = ResourceData(id: string, fields: map<string, Value>)

  /** The result of Create, Read, Update and Delete: the data as left behind and the error returned, if any. */
  datatype Applied = Applied(data: ResourceData, err: Option<Error>)

  /** `d.Get(key).(string)`: an unset string attribute reads as "". */
  function GetString(d: ResourceData, key: string): string
  {
    if key in d.fields && d.fields[key].Str? then d.fields[key].text else ""
  }

  /** `d.GetOk(key)`: the attribute is set to a non-zero value. */
  predicate GetOk(d: ResourceData, key: string)
  {
    key in d.fields && d.fields[key] != Str("") && d.fields[key] != Flag(false)
  }

  /** `d.Set(key, v)`. */
  function Set(d: ResourceData, key: string, v: Value): (r: ResourceData)
    ensures r.id == d.id
    ensures r.fields.Keys == d.fields.Keys + {key}
    ensures forall k :: k in d.fields && k != key ==> r.fields[k] == d.fields[k]
    ensures v.Str? ==> GetString(r, key) == v.text
  {
    d.(fields := d.fields[key := v])
  }

  /** `d.SetId(id)`; `SetId("")` tells Terraform the remote object is gone. */
  function SetId(d: ResourceData, id: string): (r: ResourceData)
    ensures r.id == id && r.fields == d.fields
  {
    d.(id := id)
  }

  /**
   * The shape every Read has: it keeps the id or clears it, and clearing is
   * never reported as an error.
   */
  predicate ReadShape(d: ResourceData, r: Applied)
  {
    r.data.id == d.id || (r.data.id == "" && r.err.None?)
  }

  /** An operation that failed left the id where it was. */
  predicate FailureKeepsId(d: ResourceData, r: Applied)
  {
    r.err.Some? ==> r.data.id == d.id
  }
}

=== FILE: text.dfy ===
/**
 * The string functions of Go's `strings` package that the identifier codecs
 * rely on: `Split` and `Join` on a one-character separator, and `ToUpper`.
 */
module Text {

  /**
   * `strings.Split(s, string(sep))`: the maximal separator-free pieces of `s`,
   * in order. Splitting the empty string yields one empty piece, and every
   * separator in `s` starts a new piece, so adjacent separators give empty pieces.
   */
  function Split(s: string, sep: char): (parts: seq<string>)
    ensures |parts| >= 1
    decreases |s|
  {
    if |s| == 0 then [""]
    else
      var rest := Split(s[1..], sep);
      if s[0] == sep then [""] + rest
      else [[s[0]] + rest[0]] + rest[1..]
  }

  /** No piece of a split contains the separator. */
  lemma {:induction false} SplitPiecesUndelimited(s: string, sep: char)
    ensures forall i :: 0 <= i < |Split(s, sep)| ==> sep !in Split(s, sep)[i]
    decreases |s|
  {
    if |s| > 0 {
      SplitPiecesUndelimited(s[1..], sep);
      var rest := Split(s[1..], sep);
      if s[0] != sep {
        assert forall i :: 1 <= i < |rest| ==> rest[1..][i - 1] == rest[i];
      }
    }
  }

  /** `strings.Join(parts, string(sep))`: the pieces with one separator between neighbours. */
  function Join(parts: seq<string>, sep: char): string
  {
    if |parts| == 0 then ""
    else if |parts| == 1 then parts[0]
    else parts[0] + [sep] + Join(parts[1..], sep)
  }

  /** The pieces `Split` makes of each element of `parts`, concatenated in order. */
  function SplitEach(parts: seq<string>, sep: char): seq<string>
  {
    if |parts| == 0 then [] else Split(parts[0], sep) + SplitEach(parts[1..], sep)
  }

  /** `unicode.ToUpper` restricted to ASCII letters. */
  function UpperChar(c: char): char
  {
    if 'a' <= c <= 'z' then (c as int - 32) as char else c
  }

  /** `strings.ToUpper`, modelled on ASCII: lower-case letters become upper-case, the rest is kept. */
  function ToUpper(s: string): (u: string)
    ensures |u| == |s|
    ensures forall i :: 0 <= i < |u| ==> !('a' <= u[i] <= 'z')
    ensures forall i :: 0 <= i < |u| && !('a' <= s[i] <= 'z') ==> u[i] == s[i]
    ensures forall i :: 0 <= i < |u| && 'a' <= s[i] <= 'z' ==> u[i] as int == s[i] as int - ('a' as int - 'A' as int)
  {
    seq(|s|, i requires 0 <= i < |s| => UpperChar(s[i]))
  }

  /** Joining two non-empty piece lists puts exactly one separator between them. */
  lemma {:induction false} JoinAppend(a: seq<string>, b: seq<string>, sep: char)
    requires |a| >= 1 && |b| >= 1
    ensures Join(a + b, sep) == Join(a, sep) + [sep] + Join(b, sep)
    decreases |a|
  {
    if |a| == 1 {
      assert (a + b)[1..] == b;
    } else {
      assert (a + b)[1..] == a[1..] + b;
      JoinAppend(a[1..], b, sep);
    }
  }

  /** Prefixing a character to the first piece prefixes it to the joined string. */
  lemma JoinConsFirst(c: char, parts: seq<string>, sep: char)
    requires |parts| >= 1
    ensures Join([[c] + parts[0]] + parts[1..], sep) == [c] + Join(parts, sep)
  {
  }

  /** Joining the pieces of a split restores the original string: splitting loses nothing. */
  lemma {:induction false} JoinSplit(s: string, sep: char)
    ensures Join(Split(s, sep), sep) == s
    decreases |s|
  {
    if |s| > 0 {
      var rest := Split(s[1..], sep);
      JoinSplit(s[1..], sep);
      if s[0] == sep {
        assert ([""] + rest)[1..] == rest;
      } else {
        JoinConsFirst(s[0], rest, sep);
      }
      assert s == [s[0]] + s[1..];
    }
  }

  /** Prepending a character to the first piece of `a` commutes with appending `b`. */
  lemma ExtendFirst(c: char, a: seq<string>, b: seq<string>)
    requires |a| >= 1
    ensures [[c] + (a + b)[0]] + (a + b)[1..] == ([[c] + a[0]] + a[1..]) + b
  {
  }

  /** One step of `Split`: the first character either ends the first piece or is prepended to it. */
  lemma SplitStep(s: string, sep: char)
    requires |s| >= 1
    ensures s[0] == sep ==> Split(s, sep) == [""] + Split(s[1..], sep)
    ensures s[0] != sep ==> Split(s, sep) == [[s[0]] + Split(s[1..], sep)[0]] + Split(s[1..], sep)[1..]
  {
  }

  /** A separator splits a string into the pieces of its left part followed by those of its right part. */
  lemma {:induction false} SplitConcat(x: string, y: string, sep: char)
    ensures Split(x + [sep] + y, sep) == Split(x, sep) + Split(y, sep)
    decreases |x|
  {
    var s := x + [sep] + y;
    if |x| == 0 {
      assert s == [sep] + y;
      SplitStep(s, sep);
      assert s[1..] == y;
    } else {
      assert s[0] == x[0] && s[1..] == x[1..] + [sep] + y;
      SplitConcat(x[1..], y, sep);
      SplitStep(s, sep);
      SplitStep(x, sep);
      var rx := Split(x[1..], sep);
      var ry := Split(y, sep);
      assert Split(s[1..], sep) == rx + ry;
      if x[0] != sep {
        ExtendFirst(x[0], rx, ry);
      }
    }
  }

  /** A separator-free string is a single piece. */
  lemma {:induction false} SplitUndelimited(s: string, sep: char)
    requires sep !in s
    ensures Split(s, sep) == [s]
    decreases |s|
  {
    if |s| > 0 {
      SplitUndelimited(s[1..], sep);
      assert s == [s[0]] + s[1..];
    }
  }

  /**
   * Join does no escaping: splitting a joined list yields the pieces of each
   * element in turn, so an element containing the separator falls apart.
   */
  lemma {:induction false} SplitJoin(parts: seq<string>, sep: char)
    requires |parts| >= 1
    ensures Split(Join(parts, sep), sep) == SplitEach(parts, sep)
    decreases |parts|
  {
    if |parts| == 1 {
      assert SplitEach(parts, sep) == Split(parts[0], sep) + SplitEach([], sep);
    } else {
      SplitConcat(parts[0], Join(parts[1..], sep), sep);
      SplitJoin(parts[1..], sep);
    }
  }

  /** The pieces of separator-free strings are the strings themselves. */
  lemma {:induction false} SplitEachUndelimited(parts: seq<string>, sep: char)
    requires forall i :: 0 <= i < |parts| ==> sep !in parts[i]
    ensures SplitEach(parts, sep) == parts
    decreases |parts|
  {
    if |parts| > 0 {
      SplitUndelimited(parts[0], sep);
      SplitEachUndelimited(parts[1..], sep);
      assert parts == [parts[0]] + parts[1..];
    }
  }

  /** Splitting a join of non-empty, separator-free pieces gives the pieces back. */
  lemma SplitJoinUndelimited(parts: seq<string>, sep: char)
    requires |parts| >= 1
    requires forall i :: 0 <= i < |parts| ==> sep !in parts[i]
    ensures Split(Join(parts, sep), sep) == parts
  {
    SplitJoin(parts, sep);
    SplitEachUndelimited(parts, sep);
  }
}
